=== FILE: README.md ===
# Options flow scraper and short-volume loader — a Dafny model

This project models the deterministic core of a small market-data tool. The
tool is two Python scripts:

- `OptionScraper.py` scrapes an options-statistics page for a list of tickers
  at a fixed interval. Each page visit reads five values: the price, the net
  delta of calls and of puts, and the net premium of calls and of puts. Each
  visit appends one row with two derived "momentum" columns to a CSV file per
  ticker and per day. A dashboard reads these files back over a date range
  and charts them.
- `DarkPoolData.py` downloads a day's short-volume file. It turns every line
  into a (day, ticker, buy volume, sell volume, rate) row and inserts those
  rows into a database table.

What is modelled, module by module:

- `Text` covers the parts of Python's string handling the scripts rely on:
  `str.strip`, `str.replace(c, '')`, `str.upper` and `int(str)`.
- `Dates` covers calendar dates and their `YYYYMMDD` and `YYYY-MM-DD` forms.
- `OptionParse` covers `process` and `parse`. `process` reads one page text
  as an integer; `parse` reads the five values of a page.
- `Snapshots` covers the stored row, the derived columns, the fixed
  eight-column schema, the row list that `update_csv` builds, and the one-row
  append. It also covers the file-name template.
- `AppendStore` is the folder of data files, modelled as a class whose map
  from (ticker, day) to table the methods update. `update_csv` and one pass
  over all scanner pages are its methods. Lemmas state what a whole pass does
  to the store.
- `Scheduler` covers the loop of `launch_scraper`: a pass, then a sleep for
  what is left of the interval.
- `RangeAggregator` covers the day-range read of `update_graphs` and the
  mismatch between the writer's and the reader's ticker case.
- `ShortVolume` covers `insert_daily_dp_volume`, written as a pure transform
  plus a method that submits and commits the rows on a connection object.

How the system's own entities are represented:

- Days are integers (day numbers).
- The clock readings, the page texts and the downloaded table are inputs.
- A failing `int()` or `to_datetime` is modelled as `None`.
- An exception that escapes a function is modelled as an explicit outcome.

Two behaviours of the code worth knowing:

- The short-volume loader returns `False` in two places
  (DarkPoolData.py:11-12 and 32-33). The first is a date argument
  `to_datetime` cannot read. The second is a failing volume subtraction,
  which in the model means a missing `TotalVolume` or `ShortVolume` column.
  - A date argument that `to_datetime` reads as NaT, such as `""`, `"NaT"` or
    `"nan"`, does not return `False`: `strftime` on line 13 raises.
  - A missing `Date` or `Symbol` column raises an exception that escapes the
    function, and so does a line whose date is not a `YYYYMMDD` date.
  - `Transform` and `InsertDailyDpVolume` tell returning `False`
    (`Refused`, `ReturnedFalse`) apart from raising (`Crashes`, `Raised`).
- Cleaning a text the way `process` does is not idempotent as a string.
  - For example, `"$ 5"` cleans to `" 5"`, and cleaning that again gives `"5"`.
  - The integer `process` returns is nevertheless stable. See
    `OptionParse.CleanNotIdempotent` and `OptionParse.ProcessStable`.

## Model

| member | source | states |
|---|---|---|
| `Text.StripBy` | OptionScraper.py:25 | `strip(chars)` returns the slice of the text that has only characters of `chars` before and after it and none at its own ends, so exactly the edge characters of `chars` are removed; an already-trimmed text is left alone |
| `Text.StripByWindow` | OptionScraper.py:25 | `strip(chars)` of a text with only characters of `chars` around a core that has none at its ends gives back exactly that core |
| `Text.Strip` | OptionScraper.py:21 | `strip()` returns the slice of the text left after removing the whitespace at both ends (the ASCII whitespace of `str.isspace()`, 0x1C-0x1F included), never lengthens the text, and leaves an already-trimmed text alone |
| `Text.StripKeepsOnly` | OptionScraper.py:21 | stripping only removes characters: every character of the result occurs in the input |
| `Text.RemoveChar` | OptionScraper.py:21 | `replace(c, '')` leaves no `c`, never lengthens the text, and changes nothing when there is no `c` |
| `Text.RemoveKeepsOnly` | OptionScraper.py:21 | removal only removes characters: every character of the result occurs in the input |
| `Text.RemoveCharAppend` | OptionScraper.py:21 | removal works piece by piece over a concatenation, so the remaining characters keep their order |
| `Text.Upper` | OptionScraper.py:223 | `upper()` keeps the length, turns every lower-case letter into its own capital (32 code points lower), and keeps every other character |
| `Text.ParseIntStrip` | OptionScraper.py:21 | `int()` ignores surrounding whitespace: stripping first changes nothing |
| `Text.ParseShowInt` | OptionScraper.py:21 | `int()` reads back the decimal rendering of every integer, negative ones included |
| `Text.ParseInt` | OptionScraper.py:21 | `int()` succeeds exactly when the stripped text is an optional sign followed by one or more digits and nothing else (so `"12abc"` and `"1.5"` raise), and always raises on a text without a digit |
| `Dates.FixedDigitsValue` | DarkPoolData.py:35 | rendering a digit string's value zero-padded to the string's own width gives the string back |
| `Dates.FormatCompact` | DarkPoolData.py:13 | `strftime('%Y%m%d')` gives eight digits |
| `Dates.FormatIso` | DarkPoolData.py:35 | `strftime('%Y-%m-%d')` gives ten characters with dashes at positions 4 and 7 |
| `Dates.ParseCompact` | DarkPoolData.py:34 | `to_datetime(format='%Y%m%d')` reads only eight-digit texts, only into valid dates, and a text it reads is exactly the compact rendering of the date read |
| `Dates.ParseIso` | DarkPoolData.py:10 | an ISO text that reads is exactly the `YYYY-MM-DD` rendering of a valid date, so no malformed ten-character text reads as a date |
| `Dates.CompactRoundTrip` | DarkPoolData.py:13 | a date written as `YYYYMMDD` reads back as the same date |
| `Dates.IsoRoundTrip` | OptionScraper.py:224 | a date written as `YYYY-MM-DD` (the form in the file names) reads back as the same date |
| `Dates.IsoInjective` | OptionScraper.py:224 | different dates have different `YYYY-MM-DD` labels |
| `Dates.CompactToIso` | DarkPoolData.py:34-35 | reading a `YYYYMMDD` date and writing it as `YYYY-MM-DD` just inserts the two dashes |
| `Dates.ParseDateArg` | DarkPoolData.py:9-10 | the date argument is read as the ISO date it spells, or else as the compact date it spells; a result is always a valid date, and there is none exactly when neither form reads |
| `Dates.ParseDateArgFormats` | DarkPoolData.py:10-13 | a date written in either form is read back as that same date, so the file fetched is the caller's day |
| `Dates.NotATimeUnread` | DarkPoolData.py:10 | the texts `to_datetime` reads as NaT (`""`, `"NaT"`, `"nat"`, `"NAT"`, `"nan"`, `"NaN"` and `"NAN"`) are not dates in either form |
| `OptionParse.Clean` | OptionScraper.py:21 | the text `process` converts contains no `,` and no `$` |
| `OptionParse.ProcessReadsSeparatedNumber` | OptionScraper.py:20-21 | whatever `,` and `$` are scattered through a decimal rendering of n, and whatever whitespace surrounds it, `process` returns n |
| `OptionParse.ProcessCurrencyAmount` | OptionScraper.py:21 | a currency amount with a thousands separator, such as `$1,234`, reads as the number its digits spell |
| `OptionParse.ProcessShowInt` | OptionScraper.py:21 | `process` reads back every plainly rendered integer |
| `OptionParse.Process` | OptionScraper.py:20-21 | `process` succeeds exactly when the cleaned text, stripped, is an optional sign followed by digits only, and raises on a text without a digit, such as a dash in place of a number |
| `OptionParse.CleanNotIdempotent` | OptionScraper.py:21 | cleaning the cleaned text again can still change it (`"$ 5"`) |
| `OptionParse.ProcessStable` | OptionScraper.py:21 | `process` gives the same answer on the cleaned text as on the original |
| `OptionParse.CleanPrice` | OptionScraper.py:25 | the cleaned price holds no `,`, and a price already free of edge `$`/space and of `,` is kept as it is |
| `OptionParse.CleanPriceWindow` | OptionScraper.py:25 | the cleaned price is the text between the surrounding `$` and spaces, in order, with only its `,` removed |
| `OptionParse.CleanPriceDollars` | OptionScraper.py:25 | a dollar amount with a thousands separator, such as `$1,234.50`, cleans to `1234.50` |
| `OptionParse.Parse` | OptionScraper.py:24-31 | `parse` succeeds exactly when all four integer texts pass `process`, and then returns the cleaned price and those four integers in page order (the `float()` of the price is left out, see below) |
| `OptionParse.ParseRendered` | OptionScraper.py:24-31 | a page showing plainly rendered integers parses to exactly those integers |
| `OptionParse.ParseNeedsEveryNumber` | OptionScraper.py:31 | any one of the four integer texts without a digit makes `parse` raise, whatever the other texts show |
| `Snapshots.Derive` | OptionScraper.py:243-246 | the stored row carries the reading unchanged, its delta momentum is calls + puts, its premium momentum is calls − puts, and it is the only such row |
| `Snapshots.Cells` | OptionScraper.py:249 | a row is eight cells, one per column, and placing them by position into a table row gives the row back |
| `Snapshots.BuildRow` | OptionScraper.py:243-246 | the two appends and the insert in front produce the derived row cell for cell in schema order |
| `Snapshots.EmptyTable` | OptionScraper.py:231-232 | a day without a file starts from the fixed eight-column header and no rows |
| `Snapshots.AppendRow` | OptionScraper.py:249-250 | the day's entry grows by exactly one row at its end, earlier rows unchanged and in order; a new entry becomes a one-row table with the fixed header; every other entry is untouched |
| `Snapshots.FilePath` | OptionScraper.py:15 | the path is the folder, the ticker, `data-`, the date label and `.csv`, in that order |
| `Snapshots.FilePathInjective` | OptionScraper.py:224 | with equal-length date labels, equal paths mean equal ticker and date |
| `Snapshots.DayFilesDistinct` | OptionScraper.py:224 | distinct (ticker, day) pairs give distinct path strings (which are distinct files on a case-sensitive file system, see below) |
| `AppendStore.PassAppendOnly` | OptionScraper.py:210-211 | a pass never removes, reorders or edits a row, whether it completes or stops at a failing page |
| `AppendStore.PassKeepsSchema` | OptionScraper.py:229-232 | every table keeps the fixed eight-column header through a pass |
| `AppendStore.PassRowCount` | OptionScraper.py:210-211 | a completed pass adds to each (ticker, day) entry exactly as many rows as pages written to it |
| `AppendStore.PassStops` | OptionScraper.py:210-211 | once a page has failed, the later pages change nothing |
| `AppendStore.PassCompletes` | OptionScraper.py:210-211 | a pass gets through all its pages exactly when every page parses |
| `AppendStore.AppendKeepsTimeOrder` | OptionScraper.py:245-249 | appending a row captured no earlier than every stored row keeps each day's time column in order, and the new row is then the latest |
| `AppendStore.PassKeepsStepTimeOrder` | OptionScraper.py:210-211 | over a whole pass whose rows come in time order, no earlier than anything stored, every time column stays in order and nothing stored is later than the last row written |
| `AppendStore.PassKeepsTimeOrder` | OptionScraper.py:245-249 | as long as the clock readings of the visits never go back and none is earlier than a stored row, a pass keeps every day's time column in order |
| `AppendStore.PassEffectConcat` | OptionScraper.py:206-211 | running two page sequences back to back is running the first and then, if it completed, the second |
| `AppendStore.Store.constructor` | OptionScraper.py:226-227 | the store starts from the files already in the folder |
| `AppendStore.Store.AppendToFile` | OptionScraper.py:229-250 | the day's table is read or created, gains the row at its end, and is written back and returned |
| `AppendStore.Store.UpdateCsv` | OptionScraper.py:221-251 | on a parsed page the entry (upper-cased symbol, today) gains the derived row and the written table is returned; on a failed parse nothing is written |
| `AppendStore.Store.RunPass` | OptionScraper.py:210-211 | a pass leaves the store as the pages applied in order would, stopping at the first failing page |
| `Scheduler.WaitAfterPass` | OptionScraper.py:213-216 | the loop sleeps only after a pass shorter than the interval, for a positive time that tops the pass up to exactly the interval; pass plus sleep take max(interval, elapsed) |
| `Scheduler.ClockAtLeast` | OptionScraper.py:206-216 | n passes with their sleeps never take less than n intervals |
| `Scheduler.ClockExact` | OptionScraper.py:206-216 | when every pass fits in the interval, n passes take exactly n intervals |
| `Scheduler.LaunchScraper` | OptionScraper.py:206-216 | the store ends as if all pages of all passes were visited in one run that stops at the first failing page; the clock is the sum of the passes and their sleeps |
| `RangeAggregator.DayTablesSplit` | OptionScraper.py:87-91 | the tables of a day range are those of its first part followed by those of its second part, so days come in ascending order |
| `RangeAggregator.DayTablesEmpty` | OptionScraper.py:87-91 | nothing is read exactly when no day of the range has a file |
| `RangeAggregator.DayTablesHas` | OptionScraper.py:88-90 | the table of every day with a file is read, at its place between the earlier and later days |
| `RangeAggregator.ConcatAppend` | OptionScraper.py:96 | concatenating two lists of tables gives the rows of the first followed by those of the second |
| `RangeAggregator.Aggregate` | OptionScraper.py:93-94 | the figures are empty exactly when no initial table is given and no day of the range has a file; an empty range gives empty figures, not an error |
| `RangeAggregator.AggregateSeries` | OptionScraper.py:85-96 | the charted rows are the initial table's rows, then each present day's rows in day order |
| `RangeAggregator.AggregateRangeSplit` | OptionScraper.py:87-96 | the rows of a range are those of its first part followed by those of its second part |
| `RangeAggregator.AggregateSkipsGap` | OptionScraper.py:89-91 | a day without a file between two days with one contributes nothing |
| `RangeAggregator.UpdateGraphs` | OptionScraper.py:80-96 | the day loop collects the initial table and each present day's table in order, and charts their rows or returns empty figures |
| `RangeAggregator.UpdateGraphsUpper` | OptionScraper.py:81 | the intended reader looks the days up under the upper-cased ticker |
| `RangeAggregator.UpperIdempotent` | OptionScraper.py:223 | upper-casing twice is upper-casing once |
| `RangeAggregator.PassKeepsUpperKeys` | OptionScraper.py:223 | a pass only creates entries under upper-case tickers |
| `RangeAggregator.LowercaseTickerMissesData` | OptionScraper.py:81-88 | as written, a ticker with a lower-case letter finds no file of a store the writer filled, so the figures are empty |
| `RangeAggregator.UpperReaderSeesWrite` | OptionScraper.py:223-224 | after `update_csv` stores a row, the upper-casing reader charts that day's rows ending with it, whatever case the symbol was typed in |
| `ShortVolume.Url` | DarkPoolData.py:13-14 | the file URL is the fixed prefix, the day's `YYYYMMDD` date and `.txt` |
| `ShortVolume.UrlInjective` | DarkPoolData.py:14 | distinct days are fetched from distinct files |
| `ShortVolume.DropFooter` | DarkPoolData.py:23 | every line but the last is kept, in order; an empty table stays empty |
| `ShortVolume.Rows` | DarkPoolData.py:34-37 | when every date converts, there is one row per line |
| `ShortVolume.RateSentinel` | DarkPoolData.py:37 | the rate is −1 exactly when the sell volume is zero (for 0 ≤ short ≤ total); otherwise rate × sell = buy; e.g. 100/100 gives −1 and 40/100 gives 2/3 |
| `ShortVolume.RowsDefined` | DarkPoolData.py:34 | the rows exist exactly when every line's date is a `YYYYMMDD` date |
| `ShortVolume.RowsRewrite` | DarkPoolData.py:31-42 | row i is line i: its date with dashes, its symbol, short volume as buy, total − short as sell, and their rate |
| `ShortVolume.RowsFailFrom` | DarkPoolData.py:34 | one line with a bad date makes the whole date conversion fail |
| `ShortVolume.BadDateRefused` | DarkPoolData.py:9-12 | a date argument that is neither a date nor a NaT spelling returns `False`, whatever the download would have given |
| `ShortVolume.MissingVolumeRefused` | DarkPoolData.py:30-33 | a file without the `TotalVolume` or `ShortVolume` column returns `False` rather than raising, whatever else it holds |
| `ShortVolume.NotATimeRaises` | DarkPoolData.py:10-13 | a date argument read as NaT raises at the `strftime`, before anything is fetched |
| `ShortVolume.Transform` | DarkPoolData.py:7-42 | rows are inserted only for a date argument that is a date and a file with all four of `Date`, `Symbol`, `ShortVolume` and `TotalVolume`, one row per line but the footer |
| `ShortVolume.TransformRows` | DarkPoolData.py:22-42 | the rows inserted are one per line of the file but its footer, in file order, each built from its own line |
| `ShortVolume.TransformInserts` | DarkPoolData.py:9-42 | a readable date argument and a file with all four columns whose lines all carry a compact date are loaded, with the converted lines but the footer as the rows |
| `ShortVolume.TransformCrashes` | DarkPoolData.py:30-42 | with both volume columns present, a missing `Date` or `Symbol` column, or a line date that is not a compact date, raises |
| `ShortVolume.ConvertLines` | DarkPoolData.py:34-37 | the line-by-line conversion yields exactly the rows of the lines, and nothing when one date is not a `YYYYMMDD` date |
| `ShortVolume.Connection.ExecuteMany` | DarkPoolData.py:46 | the rows are submitted after those already pending; nothing is committed |
| `ShortVolume.Connection.Commit` | DarkPoolData.py:47 | the pending rows become committed, in order |
| `ShortVolume.InsertDailyDpVolume` | DarkPoolData.py:7-48 | returns `False` or raises with the connection untouched on the failure paths; otherwise returns `True` only after every row was submitted and committed |

## Left out

- Browser launch, login, the bot-detection script, page navigation and
  reload, and the DOM selector lookups are a foreign library and I/O. The five
  texts a page shows are inputs.
- `OptionParse.Parse`: the `float()` of the price (OptionScraper.py:25) is not
  modelled. The cleaned price text is what a row carries, so a price text that
  `float()` refuses, which raises in the code, is accepted by the model.
- `int()` and `strip()` are modelled over ASCII text only. Underscore
  separators and non-ASCII digits or whitespace, which Python also accepts,
  are not.
- `str.upper()` is modelled on ASCII letters only.
- The Dash layout, callback and server, and all Plotly figure building, are
  UI. Figures are either empty or the row series they would plot.
- How `pd.to_datetime` reads the dashboard's date strings is not modelled.
  The reader takes day numbers. The calendar mapping between day numbers and
  dates is not modelled either; `FilePath` and `DayFilesDistinct` relate
  calendar dates to file names.
- `Dates.ParseDateArg` accepts only the ISO and compact forms, and treats only
  the NaT spellings in `NotATime` as NaT. pandas accepts many more forms, and it
  limits years to its timestamp range, which is also not modelled.
- `ShortVolume.Transform`: volumes are integers. A volume column that pandas
  does not read as numbers makes the subtraction on line 31 fail, and the bare
  `except` returns `False`; the model does not capture that case.
- Reading and writing CSV, `os.path.exists` and `os.makedirs` are I/O. The
  folder is a map from (ticker, day) to table.
- Keying the folder by (ticker, day) assumes a case-sensitive file system that
  compares paths as exact strings. On a case-insensitive file system (the
  Windows and macOS default) `spxdata-<date>.csv` and `SPXdata-<date>.csv` are
  one file, so the mismatch of OptionScraper.py:81 does not show there. A
  ticker containing path syntax, such as `./SPX`, can also name the same file
  as another ticker. `Snapshots.DayFilesDistinct` and
  `RangeAggregator.LowercaseTickerMissesData` rest on this assumption. CSV type round-trips (the time
  column becoming text after a reload) are not modelled.
- `pd.concat` of tables with different columns is not modelled. All tables
  share the fixed schema.
- Threads and their joins are concurrency. The dashboard thread and the
  scraper thread share only the files.
- Real clocks and `time.sleep` are not modelled. The seconds each pass took
  are inputs, and a sleep is modelled by the time it adds.
- The wall-clock reading that stamps each row (OptionScraper.py:245) is an
  unconstrained input. The order of a day's time column is therefore proved
  only under the assumption the code itself relies on, that the clock never
  goes back (`AppendStore.PassKeepsTimeOrder`).
- The HTTP request, the pipe-separated parsing of the download, and pandas'
  type inference for its columns are I/O or foreign code. The download is a
  function from URL to parsed table.
- The SQL text, the table and column name parameters, and the database
  driver are foreign code. The connection is a class that keeps the submitted
  and the committed rows.
- Float rounding of the rate is not modelled. The rate is an exact `real`.
- A short-volume file with no lines after its footer is dropped is modelled
  as inserting no rows. pandas' behaviour for the row-wise `apply` on an empty
  frame is not modelled.

## Findings

| source | as written | input that shows it | evidently intended | confidence | as-written member | corrected member |
|---|---|---|---|---|---|---|
| OptionScraper.py:81 | `ticker.upper()` discards its result, so the file lookups on line 88 use the ticker as typed, while the writer (line 223) stores files under the upper-cased symbol | ticker `spx` typed in the dashboard while the scraper writes `SPX` files: on a case-sensitive file system no day is found and the figures are empty | `ticker = ticker.upper()`, so the reader finds what the writer wrote | not executed | `RangeAggregator.LowercaseTickerMissesData` | `RangeAggregator.UpperReaderSeesWrite` |

=== FILE: append_store.dfy ===
/** The per-ticker, per-day options data files and the scraper's write path:
    `update_csv` reads the day's table (or starts an empty one), appends one
    derived row and writes the table back; a pass visits every scanner page
    in turn. The file system is a map from (ticker, day) to table. */
module AppendStore {
  import opened Text
  import opened OptionParse
  import opened Snapshots

  /** What one visit to a scanner page supplies: the page's symbol attribute,
      the clock readings (today's day number, the current second) and the
      five texts after the reload. */
  datatype Visit = Visit(symbol: string, today: int, now: int, texts: PageTexts)

  /** The entry a visit writes: the symbol is upper-cased, the day is today. */
  function VisitKey(v: Visit): Key {
    Key(Upper(v.symbol), v.today)
  }

  /** What one `update_csv` call does with a page: the entry it writes to,
      and the derived row, or None when `parse` raises. */
  datatype Step = Step(key: Key, row: Option<Row>)

  function StepOf(v: Visit): Step {
    Step(VisitKey(v), match Parse(v.texts) case None => None case Some(s) => Some(Derive(v.now, s)))
  }

  /** The store after visiting the pages in order, and whether the pass got
      through all of them: the first failing step ends it (the table it read
      is never written back), keeping what the earlier steps wrote. */
  datatype PassState = PassState(tables: map<Key, Table>, completed: bool)

  function PassEffect(tables: map<Key, Table>, steps: seq<Step>): PassState
    decreases |steps|
  {
    if steps == [] then PassState(tables, true)
    else
      var st := PassEffect(tables, steps[..|steps| - 1]);
      var last := steps[|steps| - 1];
      if !st.completed then st
      else match last.row
        case None => PassState(st.tables, false)
        case Some(r) => PassState(AppendRow(st.tables, last.key, r), true)
  }

  /** Every table has the fixed schema. */
  predicate Schema(tables: map<Key, Table>) {
    forall k :: k in tables ==> tables[k].columns == Columns
  }

  /** `after` only grew `before`: every entry survives with its header, and
      its old rows are a prefix of its new rows. */
  predicate Extends(before: map<Key, Table>, after: map<Key, Table>) {
    forall k :: k in before ==>
      k in after && after[k].columns == before[k].columns &&
      |before[k].rows| <= |after[k].rows| && after[k].rows[..|before[k].rows|] == before[k].rows
  }

  lemma ExtendsTransitive(a: map<Key, Table>, b: map<Key, Table>, c: map<Key, Table>)
    requires Extends(a, b) && Extends(b, c)
    ensures Extends(a, c)
  {
    forall k | k in a
      ensures k in c && c[k].columns == a[k].columns
      ensures |a[k].rows| <= |c[k].rows| && c[k].rows[..|a[k].rows|] == a[k].rows
    {
      assert c[k].rows[..|b[k].rows|][..|a[k].rows|] == c[k].rows[..|a[k].rows|];
    }
  }

  /** A pass is append-only: no row is ever removed, reordered or edited,
      whether the pass completes or stops at a failing page. */
  lemma {:induction false} PassAppendOnly(tables: map<Key, Table>, steps: seq<Step>)
    ensures Extends(tables, PassEffect(tables, steps).tables)
  {
    if steps != [] {
      var init := steps[..|steps| - 1];
      var last := steps[|steps| - 1];
      var st := PassEffect(tables, init);
      PassAppendOnly(tables, init);
      if st.completed && last.row.Some? {
        var u := AppendRow(st.tables, last.key, last.row.value);
        assert Extends(st.tables, u);
        ExtendsTransitive(tables, st.tables, u);
      }
    }
  }

  /** A pass keeps every table in the fixed schema. */
  lemma {:induction false} PassKeepsSchema(tables: map<Key, Table>, steps: seq<Step>)
    requires Schema(tables)
    ensures Schema(PassEffect(tables, steps).tables)
  {
    if steps != [] {
      PassKeepsSchema(tables, steps[..|steps| - 1]);
    }
  }

  /** A pass gets through all its pages exactly when every page parses. */
  lemma {:induction false} PassCompletes(tables: map<Key, Table>, steps: seq<Step>)
    ensures PassEffect(tables, steps).completed <==> forall i :: 0 <= i < |steps| ==> steps[i].row.Some?
    decreases |steps|
  {
    if steps != [] {
      var init := steps[..|steps| - 1];
      PassCompletes(tables, init);
      assert forall i :: 0 <= i < |init| ==> init[i] == steps[i];
    }
  }

  /** How many of the steps write to `key`. */
  function Writes(steps: seq<Step>, key: Key): nat
    decreases |steps|
  {
    if steps == [] then 0
    else Writes(steps[..|steps| - 1], key) + (if steps[|steps| - 1].key == key then 1 else 0)
  }

  /** A completed pass adds exactly one row per step to the step's entry:
      an entry written k times has grown by k rows, the rest are unchanged. */
  lemma {:induction false} PassRowCount(tables: map<Key, Table>, steps: seq<Step>, key: Key)
    requires PassEffect(tables, steps).completed
    ensures |Lookup(PassEffect(tables, steps).tables, key).rows|
         == |Lookup(tables, key).rows| + Writes(steps, key)
  {
    if steps != [] {
      PassRowCount(tables, steps[..|steps| - 1], key);
    }
  }

  /** Once a pass has stopped, the later pages are never visited. */
  lemma {:induction false} PassStops(tables: map<Key, Table>, steps: seq<Step>, i: nat)
    requires i <= |steps|
    requires !PassEffect(tables, steps[..i]).completed
    ensures PassEffect(tables, steps) == PassEffect(tables, steps[..i])
  {
    if i < |steps| {
      assert steps[..|steps| - 1][..i] == steps[..i];
      PassStops(tables, steps[..|steps| - 1], i);
    } else {
      assert steps[..i] == steps;
    }
  }

  /** `f` applied to each element, in order. */
  function Map<A, B>(f: A -> B, s: seq<A>): (r: seq<B>)
    ensures |r| == |s|
    decreases |s|
  {
    if s == [] then [] else Map(f, s[..|s| - 1]) + [f(s[|s| - 1])]
  }

  lemma {:induction false} MapPrefix<A, B>(f: A -> B, s: seq<A>, i: nat)
    requires i <= |s|
    ensures Map(f, s[..i]) == Map(f, s)[..i]
    decreases |s|
  {
    if i < |s| {
      var init := s[..|s| - 1];
      assert init[..i] == s[..i];
      MapPrefix(f, init, i);
      var done := Map(f, init);
      assert (done + [f(s[|s| - 1])])[..i] == done[..i];
    } else {
      assert s[..i] == s;
    }
  }

  lemma MapSnoc<A, B>(f: A -> B, s: seq<A>, i: nat)
    requires i < |s|
    ensures Map(f, s[..i + 1]) == Map(f, s[..i]) + [f(s[i])]
  {
    assert s[..i + 1][..i] == s[..i];
  }

  lemma {:induction false} MapAppend<A, B>(f: A -> B, a: seq<A>, b: seq<A>)
    ensures Map(f, a + b) == Map(f, a) + Map(f, b)
    decreases |b|
  {
    if b == [] {
      assert a + b == a;
    } else {
      var init := b[..|b| - 1];
      assert (a + b)[..|a + b| - 1] == a + init;
      MapAppend(f, a, init);
    }
  }

  /** One more step extends the pass by that step alone. */
  lemma PassEffectSnoc(tables: map<Key, Table>, steps: seq<Step>, last: Step)
    ensures var st := PassEffect(tables, steps);
      PassEffect(tables, steps + [last]) ==
        if !st.completed then st
        else match last.row
          case None => PassState(st.tables, false)
          case Some(r) => PassState(AppendRow(st.tables, last.key, r), true)
  {
    assert (steps + [last])[..|steps|] == steps;
  }

  /** Running two step sequences back to back is running the first, then,
      if it completed, the second on what the first left. */
  lemma {:induction false} PassEffectConcat(tables: map<Key, Table>, a: seq<Step>, b: seq<Step>)
    ensures var st := PassEffect(tables, a);
      PassEffect(tables, a + b) == if st.completed then PassEffect(st.tables, b) else st
    decreases |b|
  {
    var st := PassEffect(tables, a);
    if b == [] {
      assert a + b == a;
    } else {
      var init := b[..|b| - 1];
      var last := b[|b| - 1];
      assert a + b == (a + init) + [last];
      PassEffectConcat(tables, a, init);
      PassEffectSnoc(tables, a + init, last);
      if st.completed {
        assert b == init + [last];
        PassEffectSnoc(st.tables, init, last);
      }
    }
  }

  /** The rows' capture times never decrease, first row to last. */
  predicate TimesOrdered(rows: seq<Row>) {
    forall i, j :: 0 <= i < j < |rows| ==> rows[i].time <= rows[j].time
  }

  /** Every table's time column is in order. */
  predicate AllTimesOrdered(tables: map<Key, Table>) {
    forall k :: k in tables ==> TimesOrdered(tables[k].rows)
  }

  /** No stored row was captured after `bound`. */
  predicate TimesUpTo(tables: map<Key, Table>, bound: int) {
    forall k, i :: k in tables && 0 <= i < |tables[k].rows| ==> tables[k].rows[i].time <= bound
  }

  /** The rows the steps would write come at `bound` or later, in time order. */
  predicate StepTimesFrom(steps: seq<Step>, bound: int) {
    (forall i :: 0 <= i < |steps| && steps[i].row.Some? ==> bound <= steps[i].row.value.time) &&
    (forall i, j :: 0 <= i < j < |steps| && steps[i].row.Some? && steps[j].row.Some? ==>
      steps[i].row.value.time <= steps[j].row.value.time)
  }

  /** The time of the last row the steps carry, or `bound` when none does. */
  function LastTime(bound: int, steps: seq<Step>): int
    decreases |steps|
  {
    if steps == [] then bound
    else if steps[|steps| - 1].row.Some? then steps[|steps| - 1].row.value.time
    else LastTime(bound, steps[..|steps| - 1])
  }

  lemma {:induction false} LastTimeBelow(bound: int, steps: seq<Step>, t: int)
    requires bound <= t
    requires forall i :: 0 <= i < |steps| && steps[i].row.Some? ==> steps[i].row.value.time <= t
    ensures LastTime(bound, steps) <= t
    decreases |steps|
  {
    if steps != [] && steps[|steps| - 1].row.None? {
      var init := steps[..|steps| - 1];
      assert forall i :: 0 <= i < |init| ==> init[i] == steps[i];
      LastTimeBelow(bound, init, t);
    }
  }

  /** Appending a row captured no earlier than every stored row keeps each
      time column in order. */
  lemma AppendKeepsTimeOrder(tables: map<Key, Table>, key: Key, row: Row, bound: int)
    requires AllTimesOrdered(tables) && TimesUpTo(tables, bound) && bound <= row.time
    ensures AllTimesOrdered(AppendRow(tables, key, row))
    ensures TimesUpTo(AppendRow(tables, key, row), row.time)
  {
    var after := AppendRow(tables, key, row);
    var old_rows := Lookup(tables, key).rows;
    assert after[key].rows == old_rows + [row];
    assert forall i :: 0 <= i < |old_rows| ==> old_rows[i].time <= bound;
  }

  /** Over step sequences: when the steps' rows come at `bound` or later and
      in time order, and every stored row is at most `bound`, every time
      column stays in order and no stored row is later than the last row
      written. */
  lemma {:induction false} PassKeepsStepTimeOrder(tables: map<Key, Table>, steps: seq<Step>, bound: int)
    requires AllTimesOrdered(tables) && TimesUpTo(tables, bound)
    requires StepTimesFrom(steps, bound)
    ensures AllTimesOrdered(PassEffect(tables, steps).tables)
    ensures TimesUpTo(PassEffect(tables, steps).tables, LastTime(bound, steps))
    decreases |steps|
  {
    if steps != [] {
      var init := steps[..|steps| - 1];
      var last := steps[|steps| - 1];
      assert forall i :: 0 <= i < |init| ==> init[i] == steps[i];
      assert StepTimesFrom(init, bound);
      PassKeepsStepTimeOrder(tables, init, bound);
      var st := PassEffect(tables, init);
      var lo := LastTime(bound, init);
      if last.row.Some? {
        LastTimeBelow(bound, init, last.row.value.time);
        if st.completed {
          AppendKeepsTimeOrder(st.tables, last.key, last.row.value, lo);
        }
      }
    }
  }

  /** The capture time of a written row is the visit's clock reading. */
  lemma StepTime(v: Visit)
    ensures StepOf(v).row.Some? ==> StepOf(v).row.value.time == v.now
  {
  }

  lemma MapIndex<A, B>(f: A -> B, s: seq<A>, i: nat)
    requires i < |s|
    ensures Map(f, s)[i] == f(s[i])
  {
    MapPrefix(f, s, i + 1);
    MapSnoc(f, s, i);
  }

  /** A pass keeps every day's time column in order, provided the clock
      never goes back: the visits' readings never decrease and none is
      earlier than a row already stored. */
  lemma PassKeepsTimeOrder(tables: map<Key, Table>, visits: seq<Visit>, bound: int)
    requires AllTimesOrdered(tables) && TimesUpTo(tables, bound)
    requires forall i :: 0 <= i < |visits| ==> bound <= visits[i].now
    requires forall i, j :: 0 <= i < j < |visits| ==> visits[i].now <= visits[j].now
    ensures AllTimesOrdered(PassEffect(tables, Map(StepOf, visits)).tables)
  {
    var steps := Map(StepOf, visits);
    forall i | 0 <= i < |steps|
      ensures steps[i] == StepOf(visits[i])
      ensures steps[i].row.Some? ==> steps[i].row.value.time == visits[i].now
    {
      MapIndex(StepOf, visits, i);
      StepTime(visits[i]);
    }
    PassKeepsStepTimeOrder(tables, steps, bound);
  }

  /** The options data folder: every (ticker, day) file the scraper wrote. */
  class Store {
    var tables: map<Key, Table>

    ghost predicate Valid()
      reads this
    {
      Schema(tables)
    }

    constructor (files: map<Key, Table>)
      requires Schema(files)
      ensures Valid() && tables == files
    {
      tables := files;
    }

    /** The file half of `update_csv`: read the day's table, or start an
        empty one with the fixed header, place the row after the last one
        and write the table back; the table written is returned. */
    method AppendToFile(key: Key, row: Row) returns (table: Table)
      requires Valid()
      modifies this
      ensures Valid()
      ensures tables == AppendRow(old(tables), key, row) && table == tables[key]
    {
      table := if key in tables then tables[key] else Table(Columns, []);
      assert table == Lookup(tables, key);
      table := Table(table.columns, table.rows + [row]);
      tables := tables[key := table];
    }

    /** `update_csv`: on a successful parse the day's entry gains the derived
        row at its end and the table written back is returned; on a failed
        parse nothing is written. */
    method UpdateCsv(v: Visit) returns (df: Option<Table>)
      requires Valid()
      modifies this
      ensures Valid()
      ensures var step := StepOf(v);
        match step.row
        case None => df == None && tables == old(tables)
        case Some(r) => tables == AppendRow(old(tables), step.key, r) && df == Some(tables[step.key])
    {
      var key := Key(Upper(v.symbol), v.today);
      var parsed := Parse(v.texts);
      if parsed.None? {
        return None;
      }
      var cells := BuildRow(v.now, parsed.value);
      var row := RowOf(cells);
      assert row.value == Derive(v.now, parsed.value);
      var table := AppendToFile(key, row.value);
      df := Some(table);
    }

    /** One pass of the scraper loop over all scanner pages, in order; false
        when a page failed to parse, which ends the pass there. */
    method RunPass(visits: seq<Visit>) returns (completed: bool)
      requires Valid()
      modifies this
      ensures Valid()
      ensures PassState(tables, completed) == PassEffect(old(tables), Map(StepOf, visits))
    {
      var i := 0;
      while i < |visits|
        invariant 0 <= i <= |visits| && Valid()
        invariant PassEffect(old(tables), Map(StepOf, visits[..i])) == PassState(tables, true)
      {
        MapSnoc(StepOf, visits, i);
        PassEffectSnoc(old(tables), Map(StepOf, visits[..i]), StepOf(visits[i]));
        var df := UpdateCsv(visits[i]);
        if df.None? {
          MapPrefix(StepOf, visits, i + 1);
          PassStops(old(tables), Map(StepOf, visits), i + 1);
          return false;
        }
        i := i + 1;
      }
      assert visits[..i] == visits;
      return true;
    }
  }
}

=== FILE: dates.dfy ===
/** Calendar dates and their two text forms: the compact `YYYYMMDD` form
    (strftime('%Y%m%d'), used in the short-volume feed's URL and Date column)
    and the ISO `YYYY-MM-DD` form (strftime('%Y-%m-%d') and str(date), used
    in database rows and in the options data file names). */
module Dates {
  import opened Text

  datatype Date = Date(year: int, month: int, day: int)

  predicate IsLeapYear(y: int) {
    y % 4 == 0 && (y % 100 != 0 || y % 400 == 0)
  }

  function DaysInMonth(y: int, m: int): int {
    if m == 2 then (if IsLeapYear(y) then 29 else 28)
    else if m == 4 || m == 6 || m == 9 || m == 11 then 30
    else 31
  }

  /** A date of the proleptic Gregorian calendar with a four-digit year. */
  predicate ValidDate(d: Date) {
    1 <= d.year <= 9999 && 1 <= d.month <= 12 && 1 <= d.day <= DaysInMonth(d.year, d.month)
  }

  /** `n` rendered with exactly `width` digits, zero-padded on the left. */
  function Fixed(n: nat, width: nat): (r: string)
    ensures |r| == width && AllDigits(r)
  {
    if width == 0 then [] else Fixed(n / 10, width - 1) + [DigitChar(n % 10)]
  }

  function Pow10(k: nat): nat {
    if k == 0 then 1 else 10 * Pow10(k - 1)
  }

  /** Reading a zero-padded rendering back gives the number, as long as it fits. */
  lemma {:induction false} DigitsValueFixed(n: nat, width: nat)
    requires n < Pow10(width)
    ensures DigitsValue(Fixed(n, width)) == n
  {
    if width > 0 {
      var r := Fixed(n, width);
      assert r[..|r| - 1] == Fixed(n / 10, width - 1);
      DigitsValueFixed(n / 10, width - 1);
    }
  }

  /** Rendering the value of a digit string at the string's own width gives
      the string back, leading zeros included. */
  lemma {:induction false} FixedDigitsValue(s: string)
    requires AllDigits(s)
    ensures Fixed(DigitsValue(s), |s|) == s
  {
    if s != [] {
      var init := s[..|s| - 1];
      assert AllDigits(init) by { assert forall i :: 0 <= i < |init| ==> init[i] == s[i]; }
      FixedDigitsValue(init);
      var n := DigitsValue(s);
      var last := s[|s| - 1] as int - '0' as int;
      assert n / 10 == DigitsValue(init) && n % 10 == last;
      assert DigitChar(last) == s[|s| - 1];
      assert s == init + [s[|s| - 1]];
    }
  }

  function FormatCompact(d: Date): (r: string)
    requires ValidDate(d)
    ensures |r| == 8 && AllDigits(r)
  {
    Fixed(d.year, 4) + Fixed(d.month, 2) + Fixed(d.day, 2)
  }

  function FormatIso(d: Date): (r: string)
    requires ValidDate(d)
    ensures |r| == 10 && r[4] == '-' && r[7] == '-'
  {
    Fixed(d.year, 4) + "-" + Fixed(d.month, 2) + "-" + Fixed(d.day, 2)
  }

  function DateOf(y: string, m: string, d: string): Option<Date>
    requires AllDigits(y) && AllDigits(m) && AllDigits(d)
  {
    var date := Date(DigitsValue(y), DigitsValue(m), DigitsValue(d));
    if ValidDate(date) then Some(date) else None
  }

  /** to_datetime(s, format='%Y%m%d') for an eight-digit string; any other
      text, or an impossible month or day, is refused (None). */
  function ParseCompact(s: string): (r: Option<Date>)
    ensures r.Some? ==> ValidDate(r.value) && |s| == 8 && AllDigits(s)
    ensures r.Some? ==> FormatCompact(r.value) == s
  {
    if |s| == 8 && AllDigits(s) then
      var r := DateOf(s[..4], s[4..6], s[6..]);
      if r.Some? then CompactReadsBack(s); r else r
    else None
  }

  /** The ISO form `YYYY-MM-DD`; anything else is refused (None). A text
      that reads is exactly the ISO rendering of the date it reads as. */
  function ParseIso(s: string): (r: Option<Date>)
    ensures r.Some? ==> ValidDate(r.value) && |s| == 10
    ensures r.Some? ==> FormatIso(r.value) == s
  {
    if |s| == 10 && s[4] == '-' && s[7] == '-'
       && AllDigits(s[..4]) && AllDigits(s[5..7]) && AllDigits(s[8..])
    then
      var r := DateOf(s[..4], s[5..7], s[8..]);
      if r.Some? then IsoReadsBack(s); r else r
    else None
  }

  /** An eight-digit text that spells a valid date is that date's compact
      rendering. */
  lemma CompactReadsBack(s: string)
    requires |s| == 8 && AllDigits(s)
    requires AllDigits(s[..4]) && AllDigits(s[4..6]) && AllDigits(s[6..])
    requires DateOf(s[..4], s[4..6], s[6..]).Some?
    ensures FormatCompact(DateOf(s[..4], s[4..6], s[6..]).value) == s
  {
    FixedDigitsValue(s[..4]);
    FixedDigitsValue(s[4..6]);
    FixedDigitsValue(s[6..]);
    CompactPieces(s);
  }

  lemma CompactPieces(s: string)
    requires |s| == 8
    ensures s == s[..4] + s[4..6] + s[6..]
  {
  }

  /** A `YYYY-MM-DD` text that spells a valid date is that date's ISO
      rendering. */
  lemma IsoReadsBack(s: string)
    requires |s| == 10 && s[4] == '-' && s[7] == '-'
    requires AllDigits(s[..4]) && AllDigits(s[5..7]) && AllDigits(s[8..])
    requires DateOf(s[..4], s[5..7], s[8..]).Some?
    ensures FormatIso(DateOf(s[..4], s[5..7], s[8..]).value) == s
  {
    FixedDigitsValue(s[..4]);
    FixedDigitsValue(s[5..7]);
    FixedDigitsValue(s[8..]);
    IsoPieces(s);
  }

  lemma IsoPieces(s: string)
    requires |s| == 10 && s[4] == '-' && s[7] == '-'
    ensures s == s[..4] + "-" + s[5..7] + "-" + s[8..]
  {
    assert forall i :: 0 <= i < 10 ==> (s[..4] + "-" + s[5..7] + "-" + s[8..])[i] == s[i];
  }

  lemma CompactRoundTrip(d: Date)
    requires ValidDate(d)
    ensures ParseCompact(FormatCompact(d)) == Some(d)
  {
    var s := FormatCompact(d);
    assert s[..4] == Fixed(d.year, 4);
    assert s[4..6] == Fixed(d.month, 2);
    assert s[6..] == Fixed(d.day, 2);
    DigitsValueFixed(d.year, 4);
    DigitsValueFixed(d.month, 2);
    DigitsValueFixed(d.day, 2);
  }

  lemma IsoRoundTrip(d: Date)
    requires ValidDate(d)
    ensures ParseIso(FormatIso(d)) == Some(d)
  {
    var s := FormatIso(d);
    assert s[..4] == Fixed(d.year, 4);
    assert s[5..7] == Fixed(d.month, 2);
    assert s[8..] == Fixed(d.day, 2);
    DigitsValueFixed(d.year, 4);
    DigitsValueFixed(d.month, 2);
    DigitsValueFixed(d.day, 2);
  }

  /** A compact date that parses is rewritten into the ISO form by inserting
      the two dashes: the digits themselves are kept. */
  lemma CompactToIso(s: string)
    requires ParseCompact(s).Some?
    ensures FormatIso(ParseCompact(s).value) == s[..4] + "-" + s[4..6] + "-" + s[6..]
  {
    assert AllDigits(s[..4]) && AllDigits(s[4..6]) && AllDigits(s[6..]) by {
      assert forall i :: 0 <= i < 4 ==> s[..4][i] == s[i];
      assert forall i :: 0 <= i < 2 ==> s[4..6][i] == s[4 + i] && s[6..][i] == s[6 + i];
    }
    FixedDigitsValue(s[..4]);
    FixedDigitsValue(s[4..6]);
    FixedDigitsValue(s[6..]);
  }

  /** Different dates have different ISO labels. */
  lemma IsoInjective(d1: Date, d2: Date)
    requires ValidDate(d1) && ValidDate(d2)
    requires FormatIso(d1) == FormatIso(d2)
    ensures d1 == d2
  {
    IsoRoundTrip(d1);
    IsoRoundTrip(d2);
  }

  /** The date argument of the short-volume loader, as to_datetime reads it:
      the ISO form, or else the compact form; the date is the one the text
      spells. */
  function ParseDateArg(s: string): (r: Option<Date>)
    ensures r.Some? ==> ValidDate(r.value)
    ensures r.None? <==> ParseIso(s).None? && ParseCompact(s).None?
    ensures ParseIso(s).Some? ==> r == ParseIso(s)
    ensures ParseIso(s).None? ==> r == ParseCompact(s)
  {
    match ParseIso(s)
    case Some(d) => Some(d)
    case None => ParseCompact(s)
  }

  /** A date given in either form is read back as that date. */
  lemma ParseDateArgFormats(d: Date)
    requires ValidDate(d)
    ensures ParseDateArg(FormatIso(d)) == Some(d)
    ensures ParseDateArg(FormatCompact(d)) == Some(d)
  {
    IsoRoundTrip(d);
    CompactRoundTrip(d);
    assert ParseIso(FormatCompact(d)) == None;
  }

  /** The texts to_datetime reads as NaT ("not a time") instead of raising. */
  const NotATime: set<string> := {"", "NaT", "nat", "NAT", "nan", "NaN", "NAN"}

  /** None of them is a date in either form. */
  lemma NotATimeUnread(s: string)
    requires s in NotATime
    ensures ParseDateArg(s) == None
  {
    assert |s| <= 3;
  }
}

=== FILE: option_parse.dfy ===
/** Reading one snapshot off an options-statistics page: the page's five
    text values are cleaned of whitespace, thousands separators and currency
    signs and converted. The page lookups themselves are not modelled; the
    texts they return are the inputs here. */
module OptionParse {
  import opened Text

  /** `process` before the conversion: strip, then delete every ',' and every '$'. */
  function Clean(text: string): (r: string)
    ensures ',' !in r && '$' !in r
  {
    var once := RemoveChar(Strip(text), ',');
    var r := RemoveChar(once, '$');
    assert ',' !in r by {
      if ',' in r { RemoveKeepsOnly(once, '$', ','); }
    }
    r
  }

  /** `process`: the integer the cleaned text denotes, or None where int()
      raises, that is unless the cleaned text is a signed run of digits
      once stripped. Text without a digit, such as a dash or "N/A" in place
      of a number, always raises. */
  function Process(text: string): (r: Option<int>)
    ensures r.Some? <==> IsNumeral(Strip(Clean(text)))
    ensures NoDigit(text) ==> r == None
  {
    var c := Clean(text);
    assert NoDigit(text) ==> NoDigit(c) by {
      if NoDigit(text) {
        CleanKeepsOnly(text);
        forall i | 0 <= i < |c|
          ensures !IsDigit(c[i])
        {
          assert c[i] in c;
          var j :| 0 <= j < |text| && text[j] == c[i];
        }
      }
    }
    ParseInt(c)
  }

  /** Cleaning only removes characters: whatever the cleaned text holds,
      the original holds. */
  lemma CleanKeepsOnly(text: string)
    ensures forall x :: x in Clean(text) ==> x in text
  {
    var s := Strip(text);
    var once := RemoveChar(s, ',');
    forall x | x in Clean(text)
      ensures x in text
    {
      RemoveKeepsOnly(once, '$', x);
      RemoveKeepsOnly(s, ',', x);
      StripKeepsOnly(text, Whitespace, x);
    }
  }

  /** Whatever ',' and '$' are scattered through a decimal rendering of `n`,
      and whatever whitespace surrounds it, `process` reads `n`. Those texts
      are exactly the ones that clean to the rendering: cleaning strips the
      surrounding whitespace and deletes every ',' and '$'. */
  lemma ProcessReadsSeparatedNumber(text: string, n: int)
    requires Clean(text) == ShowInt(n)
    ensures Process(text) == Some(n)
  {
    ParseShowInt(n);
  }

  /** A decimal rendering holds neither separator. */
  lemma ShowIntPlain(n: int)
    ensures ',' !in ShowInt(n) && '$' !in ShowInt(n)
  {
    var m: nat := if n < 0 then -n else n;
    var d := ShowNat(m);
    assert forall i :: 0 <= i < |d| ==> IsDigit(d[i]);
    if n < 0 {
      assert ShowInt(n) == "-" + d;
      assert forall i :: 1 <= i < |"-" + d| ==> ("-" + d)[i] == d[i - 1];
    }
  }

  /** `process` reads back every integer the page renders plainly. */
  lemma ProcessShowInt(n: int)
    ensures Process(ShowInt(n)) == Some(n)
  {
    ShowIntPlain(n);
    ProcessReadsSeparatedNumber(ShowInt(n), n);
  }

  /** A currency amount with a thousands separator, such as "$1,234", reads
      as the number its digits spell. */
  lemma ProcessCurrencyAmount(hi: string, lo: string)
    requires |hi| > 0 && AllDigits(hi) && AllDigits(lo) && |lo| == 3
    ensures Process("$" + hi + "," + lo) == Some(DigitsValue(hi + lo))
  {
    AllDigitsAppend(hi, lo);
    CleanCurrencyAmount(hi, lo);
    ParseDigits(hi + lo);
  }

  lemma CleanCurrencyAmount(hi: string, lo: string)
    requires |hi| > 0 && AllDigits(hi) && AllDigits(lo) && |lo| == 3
    ensures Clean("$" + hi + "," + lo) == hi + lo
  {
    var t := "$" + hi + "," + lo;
    var d := hi + lo;
    assert Strip(t) == t by { StripCurrencyAmount(hi, lo); }
    assert RemoveChar(t, ',') == "$" + d by {
      RemoveCommaAmount(hi, lo);
      assert "$" + hi + lo == "$" + d;
    }
    assert RemoveChar("$" + d, '$') == d by {
      AllDigitsAppend(hi, lo);
      RemoveDollarDigits(d);
    }
  }

  lemma StripCurrencyAmount(hi: string, lo: string)
    requires |hi| > 0 && AllDigits(hi) && AllDigits(lo) && |lo| == 3
    ensures Strip("$" + hi + "," + lo) == "$" + hi + "," + lo
  {
    var t := "$" + hi + "," + lo;
    assert t[|t| - 1] == lo[2];
    assert NoEdge(t, Whitespace);
  }

  lemma RemoveCommaAmount(hi: string, lo: string)
    requires AllDigits(hi) && AllDigits(lo)
    ensures RemoveChar("$" + hi + "," + lo, ',') == "$" + hi + lo
  {
    assert RemoveChar("$" + hi, ',') == "$" + hi by {
      RemoveCharAppend("$", hi, ',');
      RemoveFromDigits(hi, ',');
      assert RemoveChar("$", ',') == "$";
    }
    assert RemoveChar("$" + hi + ",", ',') == "$" + hi by {
      RemoveCharAppend("$" + hi, ",", ',');
      assert RemoveChar(",", ',') == [];
    }
    assert RemoveChar("$" + hi + "," + lo, ',') == "$" + hi + lo by {
      RemoveCharAppend("$" + hi + ",", lo, ',');
      RemoveFromDigits(lo, ',');
    }
  }

  lemma RemoveDollarDigits(d: string)
    requires AllDigits(d)
    ensures RemoveChar("$" + d, '$') == d
  {
    RemoveFromDigits(d, '$');
    RemoveCharAppend("$", d, '$');
    assert RemoveChar("$", '$') == [];
  }

  /** Cleaning the cleaned text again can still change it (deleting a '$'
      may uncover whitespace at an end), ... */
  lemma CleanNotIdempotent()
    ensures Clean(Clean("$ 5")) != Clean("$ 5")
  {
    CleanDollarSpace();
    CleanLeadingSpace();
  }

  lemma CleanDollarSpace()
    ensures Clean("$ 5") == " 5"
  {
    assert Strip("$ 5") == "$ 5" by { assert NoEdge("$ 5", Whitespace); }
    assert RemoveChar("$ 5", ',') == "$ 5";
    RemoveCharAppend("$", " 5", '$');
  }

  lemma CleanLeadingSpace()
    ensures Clean(" 5") == "5"
  {
    assert TrimStart(" 5", Whitespace) == "5";
    assert Strip(" 5") == "5";
  }

  /** ... but never the value: int() ignores surrounding whitespace, so
      `process` gives the same answer on the cleaned text as on the original. */
  lemma ProcessStable(text: string)
    ensures Process(Clean(text)) == Process(text)
  {
    var u := Clean(text);
    var s := Strip(u);
    if ',' in s { StripKeepsOnly(u, Whitespace, ','); }
    if '$' in s { StripKeepsOnly(u, Whitespace, '$'); }
    assert Clean(u) == s by {
      assert RemoveChar(s, ',') == s;
    }
    ParseIntStrip(u);
  }

  /** The price text as `parse` cleans it: strip spaces and '$' from both
      ends, then delete every ','. The float conversion is not modelled, so
      the cleaned text is what the row carries. */
  const PriceEdge: set<char> := {'$', ' '}

  function CleanPrice(text: string): (r: string)
    ensures ',' !in r
    ensures NoEdge(text, PriceEdge) && ',' !in text ==> r == text
  {
    RemoveChar(StripBy(text, PriceEdge), ',')
  }

  /** What `parse` keeps of a price: whatever '$' and ' ' surround it are
      dropped, everything between them is kept in order with only the ','
      deleted. */
  lemma CleanPriceWindow(pre: string, w: string, post: string)
    requires OnlyOf(pre, PriceEdge) && OnlyOf(post, PriceEdge)
    requires w != [] && NoEdge(w, PriceEdge)
    ensures CleanPrice(pre + w + post) == RemoveChar(w, ',')
  {
    StripByWindow(pre, w, post, PriceEdge);
  }

  /** A dollar amount with a thousands separator, such as "$1,234.50",
      cleans to its digits and fraction with the ',' taken out. */
  lemma CleanPriceDollars(whole: string, thousands: string, fraction: string)
    requires |whole| > 0 && AllDigits(whole) && AllDigits(thousands) && AllDigits(fraction)
    requires |fraction| > 0
    ensures CleanPrice("$" + whole + "," + thousands + "." + fraction) ==
      whole + thousands + "." + fraction
  {
    var a := whole + ",";
    var b := a + thousands;
    var c := "." + fraction;
    var w := b + c;
    assert "$" + whole + "," + thousands + "." + fraction == "$" + w + "";
    assert w[0] == whole[0] && w[|w| - 1] == fraction[|fraction| - 1];
    assert IsDigit(whole[0]) && IsDigit(fraction[|fraction| - 1]);
    CleanPriceWindow("$", w, "");
    assert ',' !in c by {
      assert c == ['.'] + fraction;
      assert forall i :: 0 <= i < |fraction| ==> fraction[i] != ',';
    }
    RemoveCharAppend(whole, ",", ',');
    RemoveFromDigits(whole, ',');
    assert RemoveChar(",", ',') == [];
    assert RemoveChar(a, ',') == whole;
    RemoveCharAppend(a, thousands, ',');
    RemoveFromDigits(thousands, ',');
    assert RemoveChar(b, ',') == whole + thousands;
    RemoveCharAppend(b, c, ',');
    assert RemoveChar(w, ',') == whole + thousands + c;
    JoinAssoc(whole + thousands, ".", fraction);
  }

  lemma JoinAssoc(p: string, q: string, r: string)
    ensures p + q + r == p + (q + r)
  {
  }

  /** The five texts a page shows for one ticker. */
  datatype PageTexts = PageTexts(
    price: string,
    netDeltaCalls: string,
    netDeltaPuts: string,
    netPremiumCalls: string,
    netPremiumPuts: string)

  /** One raw reading: the parsed page values in the order `parse` lists them. */
  datatype Snapshot = Snapshot(
    price: string,
    netDeltaCalls: int,
    netDeltaPuts: int,
    netPremiumCalls: int,
    netPremiumPuts: int)

  /** `parse`: None when any of the four integer texts fails `process`
      (the ValueError escapes), otherwise the five values in page order. */
  function Parse(page: PageTexts): (r: Option<Snapshot>)
    ensures r.Some? <==>
      Process(page.netDeltaCalls).Some? && Process(page.netDeltaPuts).Some? &&
      Process(page.netPremiumCalls).Some? && Process(page.netPremiumPuts).Some?
    ensures r.Some? ==>
      r.value.price == CleanPrice(page.price) &&
      Some(r.value.netDeltaCalls) == Process(page.netDeltaCalls) &&
      Some(r.value.netDeltaPuts) == Process(page.netDeltaPuts) &&
      Some(r.value.netPremiumCalls) == Process(page.netPremiumCalls) &&
      Some(r.value.netPremiumPuts) == Process(page.netPremiumPuts)
  {
    match (Process(page.netDeltaCalls), Process(page.netDeltaPuts),
           Process(page.netPremiumCalls), Process(page.netPremiumPuts))
    case (Some(dc), Some(dp), Some(pc), Some(pp)) =>
      Some(Snapshot(CleanPrice(page.price), dc, dp, pc, pp))
    case _ => None
  }

  /** A page showing plainly rendered integers parses to exactly those
      integers, with the cleaned price text in front. */
  lemma ParseRendered(price: string, dc: int, dp: int, pc: int, pp: int)
    ensures Parse(PageTexts(price, ShowInt(dc), ShowInt(dp), ShowInt(pc), ShowInt(pp)))
         == Some(Snapshot(CleanPrice(price), dc, dp, pc, pp))
  {
    ProcessShowInt(dc);
    ProcessShowInt(dp);
    ProcessShowInt(pc);
    ProcessShowInt(pp);
  }

  /** Any one of the four integer texts without a digit (a dash, "N/A")
      is enough for `parse` to raise, whatever the other texts show. */
  lemma ParseNeedsEveryNumber(page: PageTexts)
    requires NoDigit(page.netDeltaCalls) || NoDigit(page.netDeltaPuts)
          || NoDigit(page.netPremiumCalls) || NoDigit(page.netPremiumPuts)
    ensures Parse(page) == None
  {
    if NoDigit(page.netDeltaCalls) {
      assert Process(page.netDeltaCalls) == None;
    } else if NoDigit(page.netDeltaPuts) {
      assert Process(page.netDeltaPuts) == None;
    } else if NoDigit(page.netPremiumCalls) {
      assert Process(page.netPremiumCalls) == None;
    } else {
      assert Process(page.netPremiumPuts) == None;
    }
  }
}

=== FILE: range_aggregator.dfy ===
/** The read path of the dashboard, `update_graphs`: walk the calendar days
    from the start date to the end date inclusive, read the table of every
    day that has a file for the ticker, concatenate them (after an optional
    initial table) and chart the result, or return empty figures when no
    table was found. Days are day numbers; the figures are reduced to the
    row series they plot. */
module RangeAggregator {
  import opened Text
  import opened Snapshots
  import opened AppendStore

  datatype Figures = EmptyFigures | Charts(series: seq<Row>)

  /** The tables of the days in [lo, hi) that have a file for `ticker`,
      earliest first. */
  function DayTables(tables: map<Key, Table>, ticker: string, lo: int, hi: int): seq<Table>
    decreases hi - lo
  {
    if hi <= lo then []
    else
      var day := Key(ticker, hi - 1);
      DayTables(tables, ticker, lo, hi - 1) + (if day in tables then [tables[day]] else [])
  }

  /** The days of a range come in order: the tables of [lo, hi) are those
      of [lo, mid) followed by those of [mid, hi). */
  lemma {:induction false} DayTablesSplit(tables: map<Key, Table>, ticker: string, lo: int, mid: int, hi: int)
    requires lo <= mid <= hi
    ensures DayTables(tables, ticker, lo, hi)
         == DayTables(tables, ticker, lo, mid) + DayTables(tables, ticker, mid, hi)
    decreases hi - mid
  {
    if mid < hi {
      DayTablesSplit(tables, ticker, lo, mid, hi - 1);
    }
  }

  /** Nothing is read exactly when no day of the range has a file. */
  lemma {:induction false} DayTablesEmpty(tables: map<Key, Table>, ticker: string, lo: int, hi: int)
    ensures DayTables(tables, ticker, lo, hi) == []
        <==> (forall d :: lo <= d < hi ==> Key(ticker, d) !in tables)
    decreases hi - lo
  {
    if lo < hi {
      DayTablesEmpty(tables, ticker, lo, hi - 1);
    }
  }

  /** The table of every day of the range that has a file is read, at its
      place among the days before and after it. */
  lemma DayTablesHas(tables: map<Key, Table>, ticker: string, lo: int, day: int, hi: int)
    requires lo <= day < hi && Key(ticker, day) in tables
    ensures DayTables(tables, ticker, lo, hi)
         == DayTables(tables, ticker, lo, day) + [tables[Key(ticker, day)]] + DayTables(tables, ticker, day + 1, hi)
  {
    DayTablesSplit(tables, ticker, lo, day, hi);
    DayTablesSplit(tables, ticker, day, day + 1, hi);
  }

  /** pd.concat of tables of one schema: their rows, one table after another. */
  function Concat(frames: seq<Table>): seq<Row>
    decreases |frames|
  {
    if frames == [] then [] else Concat(frames[..|frames| - 1]) + frames[|frames| - 1].rows
  }

  lemma {:induction false} ConcatAppend(a: seq<Table>, b: seq<Table>)
    ensures Concat(a + b) == Concat(a) + Concat(b)
    decreases |b|
  {
    if b == [] {
      assert a + b == a;
    } else {
      assert (a + b)[..|a + b| - 1] == a + b[..|b| - 1];
      ConcatAppend(a, b[..|b| - 1]);
    }
  }

  /** The frames `update_graphs` collects: the initial table if one is given,
      then the tables of the days from `start` to `end` inclusive. */
  function Frames(tables: map<Key, Table>, ticker: string, start: int, end: int, initial: Option<Table>): seq<Table> {
    (if initial.Some? then [initial.value] else []) + DayTables(tables, ticker, start, end + 1)
  }

  /** `update_graphs` after its lookups: empty figures when nothing was
      collected, otherwise charts of the concatenated rows. The figures are
      empty exactly when no initial table is given and no day of the range
      has a file; in particular an empty range (start after end) gives empty
      figures, not an error. */
  function Aggregate(tables: map<Key, Table>, ticker: string, start: int, end: int, initial: Option<Table>): (r: Figures)
    ensures r == EmptyFigures
        <==> initial.None? && (forall d :: start <= d <= end ==> Key(ticker, d) !in tables)
  {
    var frames := Frames(tables, ticker, start, end, initial);
    DayTablesEmpty(tables, ticker, start, end + 1);
    if frames == [] then EmptyFigures else Charts(Concat(frames))
  }

  /** Charted rows are the initial table's rows, then each day's rows in day order. */
  lemma AggregateSeries(tables: map<Key, Table>, ticker: string, start: int, end: int, initial: Option<Table>)
    requires Aggregate(tables, ticker, start, end, initial).Charts?
    ensures Aggregate(tables, ticker, start, end, initial).series
         == (if initial.Some? then initial.value.rows else []) + Concat(DayTables(tables, ticker, start, end + 1))
  {
    var head := if initial.Some? then [initial.value] else [];
    ConcatAppend(head, DayTables(tables, ticker, start, end + 1));
    if initial.Some? {
      assert Concat(head) == Concat([]) + initial.value.rows;
    }
  }

  /** A range splits at any day: the rows of [start, end] are those of
      [start, mid - 1] followed by those of [mid, end]. */
  lemma AggregateRangeSplit(tables: map<Key, Table>, ticker: string, start: int, mid: int, end: int)
    requires start <= mid <= end + 1
    ensures Concat(DayTables(tables, ticker, start, end + 1))
         == Concat(DayTables(tables, ticker, start, mid)) + Concat(DayTables(tables, ticker, mid, end + 1))
  {
    DayTablesSplit(tables, ticker, start, mid, end + 1);
    ConcatAppend(DayTables(tables, ticker, start, mid), DayTables(tables, ticker, mid, end + 1));
  }

  /** A one-day range reads that day's table, if it has one. */
  lemma DayTablesOne(tables: map<Key, Table>, ticker: string, d: int)
    ensures DayTables(tables, ticker, d, d + 1)
         == if Key(ticker, d) in tables then [tables[Key(ticker, d)]] else []
  {
    assert DayTables(tables, ticker, d, d) == [];
  }

  /** The rows of a single table. */
  lemma ConcatOne(t: Table)
    ensures Concat([t]) == t.rows
  {
    assert Concat([t]) == Concat([]) + t.rows;
  }

  /** A day without a file between two days with one contributes nothing:
      the rows of the later day follow those of the earlier one directly. */
  lemma AggregateSkipsGap(tables: map<Key, Table>, ticker: string, d: int)
    requires Key(ticker, d) in tables && Key(ticker, d + 1) !in tables && Key(ticker, d + 2) in tables
    ensures Aggregate(tables, ticker, d, d + 2, None)
         == Charts(tables[Key(ticker, d)].rows + tables[Key(ticker, d + 2)].rows)
  {
    var first := tables[Key(ticker, d)];
    var last := tables[Key(ticker, d + 2)];
    DayTablesOne(tables, ticker, d);
    DayTablesOne(tables, ticker, d + 1);
    DayTablesOne(tables, ticker, d + 2);
    DayTablesSplit(tables, ticker, d + 1, d + 2, d + 3);
    DayTablesSplit(tables, ticker, d, d + 1, d + 3);
    assert Frames(tables, ticker, d, d + 2, None) == [first] + [last];
    ConcatAppend([first], [last]);
    ConcatOne(first);
    ConcatOne(last);
  }

  /** The loop of `update_graphs` as written: the ticker is used exactly as
      given (the upper-cased copy on line 81 is discarded). */
  method UpdateGraphs(store: Store, start: int, end: int, ticker: string, initial: Option<Table>)
    returns (figures: Figures)
    ensures figures == Aggregate(store.tables, ticker, start, end, initial)
  {
    var frames: seq<Table> := [];
    if initial.Some? {
      frames := frames + [initial.value];
    }
    var date := start;
    while date <= end
      invariant start <= date && (date <= end + 1 || date == start)
      invariant frames == (if initial.Some? then [initial.value] else []) + DayTables(store.tables, ticker, start, date)
      decreases end - date
    {
      var key := Key(ticker, date);
      if key in store.tables {
        frames := frames + [store.tables[key]];
      }
      date := date + 1;
    }
    if frames == [] {
      return EmptyFigures;
    }
    return Charts(Concat(frames));
  }

  /** The evidently intended reader: the ticker is upper-cased before the
      lookups, as the writer upper-cases the page's symbol. */
  method UpdateGraphsUpper(store: Store, start: int, end: int, ticker: string, initial: Option<Table>)
    returns (figures: Figures)
    ensures figures == Aggregate(store.tables, Upper(ticker), start, end, initial)
  {
    var symbol := Upper(ticker);
    figures := UpdateGraphs(store, start, end, symbol, initial);
  }

  /** Every ticker in the store is upper-case, as the writer only ever
      creates entries under an upper-cased symbol. */
  predicate UpperKeys(tables: map<Key, Table>) {
    forall k :: k in tables ==> Upper(k.ticker) == k.ticker
  }

  lemma UpperIdempotent(s: string)
    ensures Upper(Upper(s)) == Upper(s)
  {
    var u := Upper(s);
    assert forall i :: 0 <= i < |u| ==> Upper(u)[i] == u[i];
  }

  /** A pass keeps every ticker of the store upper-case. */
  lemma {:induction false} PassKeepsUpperKeys(tables: map<Key, Table>, visits: seq<Visit>)
    requires UpperKeys(tables)
    ensures UpperKeys(PassEffect(tables, Map(StepOf, visits)).tables)
    decreases |visits|
  {
    if visits != [] {
      var init := visits[..|visits| - 1];
      var v := visits[|visits| - 1];
      PassKeepsUpperKeys(tables, init);
      UpperIdempotent(v.symbol);
      assert Map(StepOf, visits) == Map(StepOf, init) + [StepOf(v)];
      PassEffectSnoc(tables, Map(StepOf, init), StepOf(v));
    }
  }

  /** Line 81 as written: a ticker typed with a lower-case letter finds no
      file of a store the writer filled, so without an initial table the
      dashboard shows empty figures whatever was scraped. */
  lemma LowercaseTickerMissesData(tables: map<Key, Table>, ticker: string, start: int, end: int)
    requires UpperKeys(tables) && Upper(ticker) != ticker
    ensures Aggregate(tables, ticker, start, end, None) == EmptyFigures
  {
    forall d | start <= d <= end
      ensures Key(ticker, d) !in tables
    {
    }
  }

  /** The upper-casing reader sees what the writer wrote: after `update_csv`
      stored a row for a page whose symbol is typed in any case, reading
      that day under the same symbol charts the day's rows ending with it. */
  lemma UpperReaderSeesWrite(tables: map<Key, Table>, v: Visit, row: Row)
    ensures var after := AppendRow(tables, VisitKey(v), row);
      Aggregate(after, Upper(v.symbol), v.today, v.today, None)
        == Charts(Lookup(tables, VisitKey(v)).rows + [row])
  {
    var after := AppendRow(tables, VisitKey(v), row);
    var t := after[VisitKey(v)];
    assert t.rows == Lookup(tables, VisitKey(v)).rows + [row];
    DayTablesOne(after, Upper(v.symbol), v.today);
    ConcatOne(t);
  }
}

=== FILE: scheduler.dfy ===
/** The scraper loop of `launch_scraper`: each pass visits every scanner page
    through `update_csv`, then the loop sleeps for what is left of the
    interval. The clock is an input: each pass comes with the seconds it
    took. The loop never ends by itself; here it runs over a given finite
    list of passes and ends early when a page fails, since the error that
    `update_csv` lets through ends the scraper thread. */
module Scheduler {
  import opened Snapshots
  import opened AppendStore

  datatype Pause = NoSleep | Sleep(seconds: real)

  function Seconds(p: Pause): real {
    if p.Sleep? then p.seconds else 0.0
  }

  function Max(a: real, b: real): real {
    if a < b then b else a
  }

  /** The sleep after a pass that took `elapsed` seconds: only a pass shorter
      than the interval sleeps, for a positive time that brings the pass up
      to exactly the interval and never exceeds it; a pass and its sleep
      together take the interval, or the pass's own time when longer. */
  function WaitAfterPass(interval: real, elapsed: real): (p: Pause)
    ensures p.Sleep? <==> elapsed < interval
    ensures p.Sleep? ==> 0.0 < p.seconds && elapsed + p.seconds == interval
    ensures p.Sleep? && 0.0 <= elapsed ==> p.seconds <= interval
    ensures elapsed + Seconds(p) == Max(interval, elapsed)
  {
    if elapsed < interval then
      var p := Sleep(interval - elapsed);
      assert elapsed + p.seconds == interval;
      p
    else NoSleep
  }

  /** One pass of the loop: the pages in scanner order and the seconds the
      clock shows the pass took. */
  datatype Pass = Pass(visits: seq<Visit>, elapsed: real)

  /** All page visits of the given passes, pass after pass. */
  function Visits(passes: seq<Pass>): (r: seq<Visit>)
    decreases |passes|
  {
    if passes == [] then [] else Visits(passes[..|passes| - 1]) + passes[|passes| - 1].visits
  }

  lemma {:induction false} VisitsAppend(a: seq<Pass>, b: seq<Pass>)
    ensures Visits(a + b) == Visits(a) + Visits(b)
    decreases |b|
  {
    if b == [] {
      assert a + b == a;
    } else {
      var init := b[..|b| - 1];
      assert (a + b)[..|a + b| - 1] == a + init;
      VisitsAppend(a, init);
    }
  }

  /** The clock after the given passes and their sleeps. */
  function Clock(interval: real, passes: seq<Pass>): real
    decreases |passes|
  {
    if passes == [] then 0.0
    else
      var last := passes[|passes| - 1];
      Clock(interval, passes[..|passes| - 1]) + last.elapsed + Seconds(WaitAfterPass(interval, last.elapsed))
  }

  /** The loop is paced: n passes and their sleeps never take less than n intervals. */
  lemma {:induction false} ClockAtLeast(interval: real, passes: seq<Pass>)
    ensures Clock(interval, passes) >= interval * |passes| as real
    decreases |passes|
  {
    if passes != [] {
      var init := passes[..|passes| - 1];
      var last := passes[|passes| - 1];
      ClockAtLeast(interval, init);
      var c := Clock(interval, init);
      var n := |init| as real;
      assert c >= interval * n;
      assert Clock(interval, passes) == c + Max(interval, last.elapsed);
      assert interval * (n + 1.0) == interval * n + interval;
      assert |passes| as real == n + 1.0;
    }
  }

  /** When every pass fits in the interval, n passes and their sleeps take
      exactly n intervals. */
  lemma {:induction false} ClockExact(interval: real, passes: seq<Pass>)
    requires forall i :: 0 <= i < |passes| ==> passes[i].elapsed <= interval
    ensures Clock(interval, passes) == interval * |passes| as real
    decreases |passes|
  {
    if passes != [] {
      var init := passes[..|passes| - 1];
      var last := passes[|passes| - 1];
      assert forall i :: 0 <= i < |init| ==> init[i] == passes[i];
      ClockExact(interval, init);
      var n := |init| as real;
      assert Clock(interval, passes) == Clock(interval, init) + interval;
      assert interval * (n + 1.0) == interval * n + interval;
      assert |passes| as real == n + 1.0;
    }
  }

  /** Once pass i stops at a failing page, the later passes change nothing:
      the whole run has the effect of the passes up to and including pass i. */
  lemma RunEffectStops(step: Visit -> Step, tables: map<Key, Table>, passes: seq<Pass>, i: nat)
    requires i < |passes|
    requires !PassEffect(tables, Map(step, Visits(passes[..i + 1]))).completed
    ensures PassEffect(tables, Map(step, Visits(passes))) == PassEffect(tables, Map(step, Visits(passes[..i + 1])))
  {
    var head := Visits(passes[..i + 1]);
    assert passes == passes[..i + 1] + passes[i + 1..];
    VisitsAppend(passes[..i + 1], passes[i + 1..]);
    MapAppend(step, head, Visits(passes[i + 1..]));
    PassEffectConcat(tables, Map(step, head), Map(step, Visits(passes[i + 1..])));
  }

  /** Pass i + 1 of the loop adds its own pages to the visits so far. */
  lemma RunEffectNext(step: Visit -> Step, tables: map<Key, Table>, passes: seq<Pass>, i: nat)
    requires i < |passes|
    requires PassEffect(tables, Map(step, Visits(passes[..i]))).completed
    ensures PassEffect(tables, Map(step, Visits(passes[..i + 1])))
         == PassEffect(PassEffect(tables, Map(step, Visits(passes[..i]))).tables, Map(step, passes[i].visits))
  {
    assert passes[..i + 1][..i] == passes[..i];
    MapAppend(step, Visits(passes[..i]), passes[i].visits);
    PassEffectConcat(tables, Map(step, Visits(passes[..i])), Map(step, passes[i].visits));
  }

  /** The clock after pass i + 1 adds that pass and its sleep. */
  lemma ClockNext(interval: real, passes: seq<Pass>, i: nat)
    requires i < |passes|
    ensures Clock(interval, passes[..i + 1])
         == Clock(interval, passes[..i]) + passes[i].elapsed + Seconds(WaitAfterPass(interval, passes[i].elapsed))
  {
    assert passes[..i + 1][..i] == passes[..i];
  }

  /** The scraper loop over the given passes. The store ends as if every
      visit of every pass were made in one run that stops at the first
      failing page; `ran` counts the passes that completed, and `clock`
      is the time the last of them finished sleeping. */
  method LaunchScraper(store: Store, interval: real, passes: seq<Pass>) returns (ran: nat, clock: real)
    requires store.Valid()
    modifies store
    ensures store.Valid()
    ensures ran <= |passes|
    ensures PassEffect(old(store.tables), Map(StepOf, Visits(passes))) == PassState(store.tables, ran == |passes|)
    ensures clock == Clock(interval, passes[..ran])
  {
    ran, clock := 0, 0.0;
    while ran < |passes|
      invariant ran <= |passes| && store.Valid()
      invariant PassEffect(old(store.tables), Map(StepOf, Visits(passes[..ran]))) == PassState(store.tables, true)
      invariant clock == Clock(interval, passes[..ran])
    {
      RunEffectNext(StepOf, old(store.tables), passes, ran);
      var startTime := clock;
      var completed := store.RunPass(passes[ran].visits);
      if !completed {
        RunEffectStops(StepOf, old(store.tables), passes, ran);
        return;
      }
      var endTime := startTime + passes[ran].elapsed;
      var waitTime := endTime - startTime;
      var pause := WaitAfterPass(interval, waitTime);
      clock := endTime + Seconds(pause);
      ClockNext(interval, passes, ran);
      ran := ran + 1;
    }
    assert passes[..ran] == passes;
  }
}

=== FILE: short_volume.dfy ===
/** The daily short-volume loader, `insert_daily_dp_volume`: read the date
    argument, download the day's pipe-separated short-volume file, drop its
    trailing footer line, derive the sell volume and the buy/sell rate of
    every record, rewrite the record dates into the ISO form and insert one
    (day, ticker, buy, sell, rate) row per record into the database.
    The download is a function from URL to the table it parses to; the
    database connection keeps the rows submitted and the rows committed. */
module ShortVolume {
  import opened Text
  import opened Dates

  /** The feed's column names the loader relies on. */
  const DateColumn: string := "Date"
  const SymbolColumn: string := "Symbol"
  const ShortVolumeColumn: string := "ShortVolume"
  const TotalVolumeColumn: string := "TotalVolume"

  /** One line of the feed: its date as written (`YYYYMMDD`), its symbol and
      its volumes. */
  datatype Record = Record(date: string, symbol: string, shortVolume: int, totalVolume: int)

  /** What the downloaded text parses to: the header's column names and the
      lines below it, the footer line included. */
  datatype Feed = Feed(columns: set<string>, records: seq<Record>)

  const UrlPrefix: string := "http://cdn.finra.org/equity/regsho/daily/CNMSshvol"

  /** The file of a day: the compact date between the fixed prefix and ".txt". */
  function Url(d: Date): (u: string)
    requires ValidDate(d)
    ensures |u| == |UrlPrefix| + 12
    ensures u[..|UrlPrefix|] == UrlPrefix && u[|UrlPrefix| + 8..] == ".txt"
    ensures u[|UrlPrefix|..|UrlPrefix| + 8] == FormatCompact(d)
  {
    UrlPrefix + FormatCompact(d) + ".txt"
  }

  /** Distinct days are fetched from distinct files. */
  lemma UrlInjective(d1: Date, d2: Date)
    requires ValidDate(d1) && ValidDate(d2) && Url(d1) == Url(d2)
    ensures d1 == d2
  {
    var u := Url(d1);
    assert FormatCompact(d1) == u[|UrlPrefix|..|UrlPrefix| + 8] == FormatCompact(d2);
    CompactRoundTrip(d1);
    CompactRoundTrip(d2);
  }

  /** `df.iloc[:-1]`: every line but the last, in order; nothing of nothing. */
  function DropFooter(records: seq<Record>): (r: seq<Record>)
    ensures |r| == if records == [] then 0 else |records| - 1
    ensures r == records[..|r|]
  {
    if records == [] then [] else records[..|records| - 1]
  }

  /** The buy/sell rate: the quotient when anything was sold, the sentinel
      -1 when nothing was. */
  function Rate(buy: int, sell: int): real {
    if sell != 0 then buy as real / sell as real else -1.0
  }

  /** For volumes of a well-formed line (0 <= short <= total) the sentinel
      means exactly that the whole volume was short: the rate is never -1
      otherwise, and it is the plain quotient whenever anything was sold. */
  lemma RateSentinel(short: int, total: int)
    requires 0 <= short <= total
    ensures Rate(short, total - short) == -1.0 <==> short == total
    ensures short < total ==> Rate(short, total - short) * (total - short) as real == short as real
    ensures Rate(100, 100 - 100) == -1.0 && Rate(40, 100 - 40) == 2.0 / 3.0
  {
    if short < total {
      var sell := (total - short) as real;
      assert short as real / sell >= 0.0;
    }
  }

  /** One inserted row, in the column order of the insert. */
  datatype DayRow = DayRow(day: string, ticker: string, buy: int, sell: int, rate: real)

  /** The row of a line whose date parsed to `d`. */
  function LineRow(r: Record, d: Date): DayRow
    requires ValidDate(d)
  {
    var sell := r.totalVolume - r.shortVolume;
    DayRow(FormatIso(d), r.symbol, r.shortVolume, sell, Rate(r.shortVolume, sell))
  }

  /** The rows of the given lines, or None when a line's date is not a
      compact date (the whole column conversion then raises). */
  function Rows(records: seq<Record>): (r: Option<seq<DayRow>>)
    ensures r.Some? ==> |r.value| == |records|
    decreases |records|
  {
    if records == [] then Some([])
    else
      var last := records[|records| - 1];
      match Rows(records[..|records| - 1])
      case None => None
      case Some(rows) =>
        match ParseCompact(last.date)
        case None => None
        case Some(d) => Some(rows + [LineRow(last, d)])
  }

  /** Row `row` is line `line` as the loader rewrites it: the date with
      dashes inserted, the symbol, the short volume as the buy volume, total
      minus short as the sell volume, and their rate. */
  predicate Rewrites(row: DayRow, line: Record) {
    |line.date| == 8 &&
    row.day == line.date[..4] + "-" + line.date[4..6] + "-" + line.date[6..] &&
    row.ticker == line.symbol &&
    row.buy == line.shortVolume &&
    row.sell == line.totalVolume - line.shortVolume &&
    row.rate == Rate(row.buy, row.sell)
  }

  /** The rows exist exactly when every date is a compact date. */
  lemma {:induction false} RowsDefined(records: seq<Record>)
    ensures Rows(records).Some? <==> forall i :: 0 <= i < |records| ==> ParseCompact(records[i].date).Some?
    decreases |records|
  {
    if records != [] {
      var init := records[..|records| - 1];
      RowsDefined(init);
      assert forall i :: 0 <= i < |init| ==> init[i] == records[i];
    }
  }

  /** The row of a line is that line, rewritten. */
  lemma LineRewrites(line: Record)
    requires ParseCompact(line.date).Some?
    ensures Rewrites(LineRow(line, ParseCompact(line.date).value), line)
  {
    CompactToIso(line.date);
  }

  /** Row i is line i, rewritten. */
  lemma {:induction false} RowsRewrite(records: seq<Record>)
    requires Rows(records).Some?
    ensures forall i :: 0 <= i < |records| ==> Rewrites(Rows(records).value[i], records[i])
    decreases |records|
  {
    if records != [] {
      var init := records[..|records| - 1];
      var last := records[|records| - 1];
      var prev := Rows(init).value;
      RowsRewrite(init);
      var d := ParseCompact(last.date).value;
      LineRewrites(last);
      assert Rows(records).value == prev + [LineRow(last, d)];
      forall i | 0 <= i < |records|
        ensures Rewrites(Rows(records).value[i], records[i])
      {
        if i < |init| {
          assert records[i] == init[i];
        }
      }
    }
  }

  /** A line whose date fails makes the whole conversion fail, whatever
      follows it. */
  lemma {:induction false} RowsFailFrom(records: seq<Record>, i: nat)
    requires i <= |records| && Rows(records[..i]).None?
    ensures Rows(records).None?
    decreases |records|
  {
    if i < |records| {
      var init := records[..|records| - 1];
      assert init[..i] == records[..i];
      RowsFailFrom(init, i);
    } else {
      assert records[..i] == records;
    }
  }

  /** The function's result: False, an exception escaping it, or True. */
  datatype Outcome = ReturnedFalse | Raised | ReturnedTrue

  /** What the loader does with a date argument and the feed, up to the
      insert: refused (False) for a date argument to_datetime cannot read or
      a file without the two volume columns; an exception for a date
      argument read as NaT (strftime fails on it), a file without the Date
      or Symbol column, or a line whose date is not a compact date;
      otherwise the rows to insert. */
  datatype Load = Refused | Crashes | Insert(rows: seq<DayRow>)

  /** Rows are inserted only for a date argument that is a date and a file
      with all four columns, one row per line but the footer. */
  function Transform(dateArg: string, feed: string -> Feed): (r: Load)
    ensures r.Insert? ==> ParseDateArg(dateArg).Some?
    ensures r.Insert? ==>
      var file := feed(Url(ParseDateArg(dateArg).value));
      {DateColumn, SymbolColumn, ShortVolumeColumn, TotalVolumeColumn} <= file.columns &&
      |r.rows| == |DropFooter(file.records)|
  {
    match ParseDateArg(dateArg)
    case None => if dateArg in NotATime then Crashes else Refused
    case Some(d) =>
      var file := feed(Url(d));
      if TotalVolumeColumn !in file.columns || ShortVolumeColumn !in file.columns then Refused
      else if DateColumn !in file.columns then Crashes
      else match Rows(DropFooter(file.records))
        case None => Crashes
        case Some(rows) => if SymbolColumn !in file.columns then Crashes else Insert(rows)
  }

  /** An unreadable date argument is refused before anything is fetched:
      the result does not depend on the feed. */
  lemma BadDateRefused(dateArg: string, feed: string -> Feed)
    requires ParseIso(dateArg).None? && ParseCompact(dateArg).None? && dateArg !in NotATime
    ensures Transform(dateArg, feed) == Refused
  {
  }

  /** A file without the TotalVolume or ShortVolume column is refused: the
      volume subtraction fails and the loader returns False, not an
      exception. */
  lemma MissingVolumeRefused(dateArg: string, feed: string -> Feed)
    requires ParseDateArg(dateArg).Some?
    requires var file := feed(Url(ParseDateArg(dateArg).value));
      TotalVolumeColumn !in file.columns || ShortVolumeColumn !in file.columns
    ensures Transform(dateArg, feed) == Refused
  {
  }

  /** A readable date argument and a file with all four columns whose
      lines all carry a compact date are loaded: the rows to insert are the
      converted lines but the footer. */
  lemma TransformInserts(dateArg: string, feed: string -> Feed)
    requires ParseDateArg(dateArg).Some?
    requires var file := feed(Url(ParseDateArg(dateArg).value));
      {DateColumn, SymbolColumn, ShortVolumeColumn, TotalVolumeColumn} <= file.columns &&
      forall line :: line in DropFooter(file.records) ==> ParseCompact(line.date).Some?
    ensures var lines := DropFooter(feed(Url(ParseDateArg(dateArg).value)).records);
      Rows(lines).Some? && Transform(dateArg, feed) == Insert(Rows(lines).value)
  {
    var lines := DropFooter(feed(Url(ParseDateArg(dateArg).value)).records);
    assert forall i :: 0 <= i < |lines| ==> lines[i] in lines;
    RowsDefined(lines);
  }

  /** With both volume columns present, a file without the Date or Symbol
      column, or with a line whose date is not a compact date, makes the
      loader raise. */
  lemma TransformCrashes(dateArg: string, feed: string -> Feed)
    requires ParseDateArg(dateArg).Some?
    requires var file := feed(Url(ParseDateArg(dateArg).value));
      {ShortVolumeColumn, TotalVolumeColumn} <= file.columns &&
      (DateColumn !in file.columns || SymbolColumn !in file.columns ||
       exists line :: line in DropFooter(file.records) && ParseCompact(line.date).None?)
    ensures Transform(dateArg, feed) == Crashes
  {
    var lines := DropFooter(feed(Url(ParseDateArg(dateArg).value)).records);
    RowsDefined(lines);
  }

  /** A date argument to_datetime reads as NaT (the empty text, "NaT",
      "nan") is not refused: the strftime after it raises, before anything
      is fetched. */
  lemma NotATimeRaises(dateArg: string, feed: string -> Feed)
    requires dateArg in NotATime
    ensures Transform(dateArg, feed) == Crashes
  {
    NotATimeUnread(dateArg);
  }

  /** The rows inserted for a day are one per line of that day's file but
      its footer, in file order, each built from its own line. */
  lemma TransformRows(dateArg: string, feed: string -> Feed)
    requires Transform(dateArg, feed).Insert?
    ensures var d := ParseDateArg(dateArg).value;
      var lines := DropFooter(feed(Url(d)).records);
      var rows := Transform(dateArg, feed).rows;
      |rows| == |lines| && forall i :: 0 <= i < |lines| ==> Rewrites(rows[i], lines[i])
  {
    var d := ParseDateArg(dateArg).value;
    RowsRewrite(DropFooter(feed(Url(d)).records));
  }

  /** The database connection: rows submitted by `executemany` wait in
      `pending` until `commit` makes them part of `committed`. */
  class Connection {
    var committed: seq<DayRow>
    var pending: seq<DayRow>

    constructor ()
      ensures committed == [] && pending == []
    {
      committed, pending := [], [];
    }

    method ExecuteMany(rows: seq<DayRow>)
      modifies this
      ensures pending == old(pending) + rows && committed == old(committed)
    {
      pending := pending + rows;
    }

    method Commit()
      modifies this
      ensures committed == old(committed) + old(pending) && pending == []
    {
      committed := committed + pending;
      pending := [];
    }
  }

  /** Converting one more line: the rows so far, then that line's row, or
      None as soon as either fails. */
  lemma RowsStep(lines: seq<Record>, i: nat)
    requires i < |lines|
    ensures Rows(lines[..i + 1]) ==
      match (Rows(lines[..i]), ParseCompact(lines[i].date))
      case (Some(rows), Some(d)) => Some(rows + [LineRow(lines[i], d)])
      case _ => None
  {
    assert lines[..i + 1][..i] == lines[..i];
  }

  /** The date column's conversion (`to_datetime` with the compact format,
      then the ISO rendering) together with the derived columns, line by
      line: the rows when every date converts, None when one does not. */
  method ConvertLines(lines: seq<Record>) returns (rows: Option<seq<DayRow>>)
    ensures rows == Rows(lines)
  {
    var done: seq<DayRow> := [];
    var i := 0;
    while i < |lines|
      invariant 0 <= i <= |lines|
      invariant Rows(lines[..i]) == Some(done)
    {
      RowsStep(lines, i);
      var day := ParseCompact(lines[i].date);
      if day.None? {
        RowsFailFrom(lines, i + 1);
        return None;
      }
      done := done + [LineRow(lines[i], day.value)];
      i := i + 1;
    }
    assert lines[..i] == lines;
    return Some(done);
  }

  /** `insert_daily_dp_volume`: the connection is touched only when every
      check passed, and True is returned only after all rows were
      submitted and committed. */
  method InsertDailyDpVolume(conn: Connection, dateArg: string, feed: string -> Feed) returns (outcome: Outcome)
    modifies conn
    ensures match Transform(dateArg, feed)
      case Refused => outcome == ReturnedFalse && conn.committed == old(conn.committed) && conn.pending == old(conn.pending)
      case Crashes => outcome == Raised && conn.committed == old(conn.committed) && conn.pending == old(conn.pending)
      case Insert(rows) => outcome == ReturnedTrue && conn.committed == old(conn.committed) + old(conn.pending) + rows && conn.pending == []
  {
    var date := ParseDateArg(dateArg);
    if date.None? {
      if dateArg in NotATime {
        return Raised;
      }
      return ReturnedFalse;
    }
    var file := feed(Url(date.value));
    var lines := DropFooter(file.records);
    if TotalVolumeColumn !in file.columns || ShortVolumeColumn !in file.columns {
      return ReturnedFalse;
    }
    if DateColumn !in file.columns {
      return Raised;
    }
    var rows := ConvertLines(lines);
    if rows.None? || SymbolColumn !in file.columns {
      return Raised;
    }
    conn.ExecuteMany(rows.value);
    conn.Commit();
    return ReturnedTrue;
  }
}

=== FILE: snapshots.dfy ===
/** The options data rows: the derived momentum columns, the fixed eight-column
    schema of a day's table, the storage path template, and the one-row
    append that `update_csv` performs on a day's table. */
module Snapshots {
  import opened Text
  import opened Dates
  import opened OptionParse

  /** The column names of every options data table, in order. */
  const Columns: seq<string> := [
    "time", "price", "net_delta_calls", "net_delta_puts",
    "net_premium_calls", "net_premium_puts", "delta_momentum", "premium_momentum"]

  /** One stored row. `time` is the capture instant in whole seconds (the
      microseconds are cut off); the fields follow the order of Columns. */
  datatype Row = Row(
    time: int,
    price: string,
    netDeltaCalls: int,
    netDeltaPuts: int,
    netPremiumCalls: int,
    netPremiumPuts: int,
    deltaMomentum: int,
    premiumMomentum: int)

  /** The two derived columns agree with the raw ones. */
  predicate Consistent(r: Row) {
    r.deltaMomentum == r.netDeltaCalls + r.netDeltaPuts &&
    r.premiumMomentum == r.netPremiumCalls - r.netPremiumPuts
  }

  /** The raw reading a row was built from. */
  function Raw(r: Row): Snapshot {
    Snapshot(r.price, r.netDeltaCalls, r.netDeltaPuts, r.netPremiumCalls, r.netPremiumPuts)
  }

  /** The row `update_csv` stores for a reading taken at `time`: the reading
      comes back unchanged, the momentum columns are consistent with it, and
      every consistent row is the derivation of its own reading. */
  function Derive(time: int, s: Snapshot): (r: Row)
    ensures Consistent(r) && Raw(r) == s && r.time == time
    ensures forall q: Row :: Consistent(q) && q.time == time && Raw(q) == s ==> q == r
  {
    Row(time, s.price, s.netDeltaCalls, s.netDeltaPuts, s.netPremiumCalls, s.netPremiumPuts,
        s.netDeltaCalls + s.netDeltaPuts, s.netPremiumCalls - s.netPremiumPuts)
  }

  /** One cell of the Python list that becomes a table row. */
  datatype Cell = TimeCell(t: int) | PriceCell(p: string) | IntCell(n: int)

  /** `df.loc[len(df)] = cells`: the cells fill the columns by position;
      a list of the wrong length or shape is refused (None). */
  function RowOf(cells: seq<Cell>): Option<Row> {
    if |cells| == |Columns| && cells[0].TimeCell? && cells[1].PriceCell?
       && cells[2].IntCell? && cells[3].IntCell? && cells[4].IntCell?
       && cells[5].IntCell? && cells[6].IntCell? && cells[7].IntCell?
    then Some(Row(cells[0].t, cells[1].p, cells[2].n, cells[3].n, cells[4].n,
                  cells[5].n, cells[6].n, cells[7].n))
    else None
  }

  /** A row as the list of its cells, in schema order: one cell per column,
      and placing the list into a table row gives the row back. */
  function Cells(r: Row): (cells: seq<Cell>)
    ensures |cells| == |Columns|
    ensures RowOf(cells) == Some(r)
  {
    [TimeCell(r.time), PriceCell(r.price), IntCell(r.netDeltaCalls), IntCell(r.netDeltaPuts),
     IntCell(r.netPremiumCalls), IntCell(r.netPremiumPuts),
     IntCell(r.deltaMomentum), IntCell(r.premiumMomentum)]
  }

  /** The list `parse` returns. */
  function ParsedCells(s: Snapshot): seq<Cell> {
    [PriceCell(s.price), IntCell(s.netDeltaCalls), IntCell(s.netDeltaPuts),
     IntCell(s.netPremiumCalls), IntCell(s.netPremiumPuts)]
  }

  /** The list surgery of `update_csv`: append delta momentum (cells 1 + 2),
      append premium momentum (cells 3 - 4), insert the time in front. The
      result is the derived row, cell for cell, in schema order. */
  method BuildRow(time: int, s: Snapshot) returns (row: seq<Cell>)
    ensures row == Cells(Derive(time, s))
    ensures |row| == |Columns|
  {
    row := ParsedCells(s);
    row := row + [IntCell(row[1].n + row[2].n)];
    row := row + [IntCell(row[3].n - row[4].n)];
    row := [TimeCell(time)] + row;
  }

  /** One (ticker, day) entry of the store; days are day numbers. */
  datatype Key = Key(ticker: string, day: int)

  /** A day's table: its header and its rows in insertion order. */
  datatype Table = Table(columns: seq<string>, rows: seq<Row>)

  /** The table `update_csv` starts from when the day has no file yet. */
  function EmptyTable(): (t: Table)
    ensures t.columns == Columns && t.rows == []
  {
    Table(Columns, [])
  }

  /** The table for `key`: the stored one, or a new empty one. */
  function Lookup(tables: map<Key, Table>, key: Key): Table {
    if key in tables then tables[key] else EmptyTable()
  }

  /** The store after `df.loc[len(df)] = row` and the write-back: the entry
      for `key` holds its earlier rows, unchanged and in order, followed by
      the new row; a missing entry becomes a one-row table with the fixed
      schema; every other entry is untouched. */
  function AppendRow(tables: map<Key, Table>, key: Key, row: Row): (r: map<Key, Table>)
    ensures r.Keys == tables.Keys + {key}
    ensures r[key].columns == Lookup(tables, key).columns
    ensures |r[key].rows| == |Lookup(tables, key).rows| + 1
    ensures r[key].rows[..|r[key].rows| - 1] == Lookup(tables, key).rows
    ensures r[key].rows[|r[key].rows| - 1] == row
    ensures key !in tables ==> r[key] == Table(Columns, [row])
    ensures forall k :: k in tables && k != key ==> r[k] == tables[k]
  {
    var t := Lookup(tables, key);
    tables[key := Table(t.columns, t.rows + [row])]
  }

  /** The storage folder and the file name template `<folder><ticker>data-<date>.csv`. */
  const Folder: string := "./optionsdata/"

  function FilePath(folder: string, ticker: string, date: string): (p: string)
    ensures |p| == |folder| + |ticker| + |date| + 9
    ensures p[..|folder|] == folder
    ensures p[|folder|..|folder| + |ticker|] == ticker
    ensures p[|folder| + |ticker|..|folder| + |ticker| + 5] == "data-"
    ensures p[|p| - |date| - 4..] == date + ".csv"
  {
    folder + ticker + "data-" + date + ".csv"
  }

  /** Within one folder, two files of equal-length date labels share a path
      only if they share ticker and date; ISO labels all have length 10, so
      distinct (ticker, day) pairs never share a path string. */
  lemma FilePathInjective(folder: string, t1: string, d1: string, t2: string, d2: string)
    requires |d1| == |d2|
    requires FilePath(folder, t1, d1) == FilePath(folder, t2, d2)
    ensures t1 == t2 && d1 == d2
  {
    var p := FilePath(folder, t1, d1);
    assert |t1| == |t2|;
    assert d1 == p[|p| - |d1| - 4..|p| - 4] == d2;
    assert t1 == p[|folder|..|folder| + |t1|] == t2;
  }

  /** Distinct (ticker, calendar day) pairs have distinct path strings, so
      on a file system that compares paths as exact strings the store can be
      keyed by (ticker, day) instead of by path. */
  lemma DayFilesDistinct(t1: string, d1: Date, t2: string, d2: Date)
    requires ValidDate(d1) && ValidDate(d2) && (t1, d1) != (t2, d2)
    ensures FilePath(Folder, t1, FormatIso(d1)) != FilePath(Folder, t2, FormatIso(d2))
  {
    if FilePath(Folder, t1, FormatIso(d1)) == FilePath(Folder, t2, FormatIso(d2)) {
      FilePathInjective(Folder, t1, FormatIso(d1), t2, FormatIso(d2));
      IsoInjective(d1, d2);
    }
  }
}

=== FILE: text.dfy ===
/** Character-level helpers shared by both scrapers: the whitespace strip
    of Python's str.strip(), single-character removal (str.replace(c, '')),
    ASCII upper-casing, and the decimal integer conversion of int(str). */
module Text {

  datatype Option<T> = None | Some(value: T)

  /** The ASCII characters Python's str.isspace() accepts, and so the ones
      str.strip() and int() skip: tab, line feed, vertical tab, form feed,
      carriage return, the four information separators 0x1C-0x1F and space. */
  const Whitespace: set<char> :=
    {'\t', '\n', '\U{B}', '\U{C}', '\r', '\U{1C}', '\U{1D}', '\U{1E}', '\U{1F}', ' '}

  /** No character of `drop` at either end. */
  predicate NoEdge(s: string, drop: set<char>) {
    s == [] || (s[0] !in drop && s[|s| - 1] !in drop)
  }

  /** Drops the longest prefix made of characters of `drop`. */
  function TrimStart(s: string, drop: set<char>): (r: string)
    ensures |r| <= |s|
    ensures r == [] || r[0] !in drop
    ensures r == [] || r[|r| - 1] == s[|s| - 1]
    ensures (s == [] || s[0] !in drop) ==> r == s
  {
    if s != [] && s[0] in drop then TrimStart(s[1..], drop) else s
  }

  /** Drops the longest suffix made of characters of `drop`. */
  function TrimEnd(s: string, drop: set<char>): (r: string)
    ensures |r| <= |s|
    ensures r == [] || r[|r| - 1] !in drop
    ensures r == [] || r[0] == s[0]
    ensures (s == [] || s[|s| - 1] !in drop) ==> r == s
  {
    if s != [] && s[|s| - 1] in drop then TrimEnd(s[..|s| - 1], drop) else s
  }


  /** What TrimStart drops is a prefix of `drop` characters; what it keeps is the rest. */
  lemma {:induction false} TrimStartSlice(s: string, drop: set<char>)
    ensures var r := TrimStart(s, drop);
      r == s[|s| - |r|..] && forall i :: 0 <= i < |s| - |r| ==> s[i] in drop
  {
    if s != [] && s[0] in drop {
      TrimStartSlice(s[1..], drop);
    }
  }

  /** What TrimEnd drops is a suffix of `drop` characters; what it keeps is the rest. */
  lemma {:induction false} TrimEndSlice(s: string, drop: set<char>)
    ensures var r := TrimEnd(s, drop);
      r == s[..|r|] && forall i :: |r| <= i < |s| ==> s[i] in drop
  {
    if s != [] && s[|s| - 1] in drop {
      TrimEndSlice(s[..|s| - 1], drop);
    }
  }

  /** Only characters of `drop` lie outside the slice s[i..i + n]. */
  predicate DropsOnly(s: string, i: int, n: int, drop: set<char>)
    requires 0 <= i && 0 <= n && i + n <= |s|
  {
    (forall k :: 0 <= k < i ==> s[k] in drop) && (forall k :: i + n <= k < |s| ==> s[k] in drop)
  }

  /** `r` is a slice of `s` with only characters of `drop` around it. */
  predicate SliceWithin(s: string, r: string, drop: set<char>) {
    exists i :: 0 <= i <= |s| - |r| && r == s[i..i + |r|] && DropsOnly(s, i, |r|, drop)
  }

  /** str.strip(chars): trims characters of `chars` from both ends. The
      result is a slice of `s` with only characters of `chars` around it and
      none of them at its own ends, so it is the longest such slice; a string
      that is already trimmed is left alone. */
  function StripBy(s: string, chars: set<char>): (r: string)
    ensures NoEdge(r, chars)
    ensures |r| <= |s|
    ensures SliceWithin(s, r, chars)
    ensures NoEdge(s, chars) ==> r == s
  {
    TrimBothSlice(s, chars);
    TrimEnd(TrimStart(s, chars), chars)
  }

  /** Trimming both ends keeps a slice with only `drop` characters around it. */
  lemma TrimBothSlice(s: string, drop: set<char>)
    ensures SliceWithin(s, TrimEnd(TrimStart(s, drop), drop), drop)
  {
    var t := TrimStart(s, drop);
    var r := TrimEnd(t, drop);
    TrimStartSlice(s, drop);
    TrimEndSlice(t, drop);
    var i := |s| - |t|;
    assert t == s[i..];
    assert r == s[i..i + |r|];
    forall k | i + |r| <= k < |s|
      ensures s[k] in drop
    {
      assert s[k] == t[k - i];
    }
    assert DropsOnly(s, i, |r|, drop);
    assert 0 <= i <= |s| - |r| && r == s[i..i + |r|] && DropsOnly(s, i, |r|, drop);
  }

  /** Every character of `s` belongs to `chars`. */
  predicate OnlyOf(s: string, chars: set<char>) {
    forall i :: 0 <= i < |s| ==> s[i] in chars
  }

  lemma {:induction false} TrimStartPrefix(pre: string, rest: string, drop: set<char>)
    requires OnlyOf(pre, drop) && rest != [] && rest[0] !in drop
    ensures TrimStart(pre + rest, drop) == rest
  {
    if pre != [] {
      assert (pre + rest)[1..] == pre[1..] + rest;
      TrimStartPrefix(pre[1..], rest, drop);
    } else {
      assert pre + rest == rest;
    }
  }

  lemma {:induction false} TrimEndSuffix(rest: string, post: string, drop: set<char>)
    requires OnlyOf(post, drop) && rest != [] && rest[|rest| - 1] !in drop
    ensures TrimEnd(rest + post, drop) == rest
  {
    if post != [] {
      assert (rest + post)[..|rest + post| - 1] == rest + post[..|post| - 1];
      TrimEndSuffix(rest, post[..|post| - 1], drop);
    } else {
      assert rest + post == rest;
    }
  }

  /** str.strip(chars) takes off exactly what surrounds a text with no
      character of `chars` at its ends. */
  lemma StripByWindow(pre: string, w: string, post: string, chars: set<char>)
    requires OnlyOf(pre, chars) && OnlyOf(post, chars)
    requires w != [] && NoEdge(w, chars)
    ensures StripBy(pre + w + post, chars) == w
  {
    assert pre + w + post == pre + (w + post);
    TrimStartPrefix(pre, w + post, chars);
    TrimEndSuffix(w, post, chars);
  }

  /** str.strip() with no argument: the slice of `s` left after dropping the
      whitespace at both ends. */
  function Strip(s: string): (r: string)
    ensures NoEdge(r, Whitespace)
    ensures |r| <= |s|
    ensures SliceWithin(s, r, Whitespace)
    ensures NoEdge(s, Whitespace) ==> r == s
  {
    StripBy(s, Whitespace)
  }

  /** str.replace(c, ''): every occurrence of `c` removed, the rest kept in order. */
  function RemoveChar(s: string, c: char): (r: string)
    ensures c !in r
    ensures |r| <= |s|
    ensures c !in s ==> r == s
  {
    if s == [] then []
    else (if s[0] == c then [] else [s[0]]) + RemoveChar(s[1..], c)
  }

  /** Stripping only removes characters: whatever the result holds, `s` holds. */
  lemma StripKeepsOnly(s: string, chars: set<char>, x: char)
    requires x in StripBy(s, chars)
    ensures x in s
  {
    var t := TrimStart(s, chars);
    var r := TrimEnd(t, chars);
    TrimStartSlice(s, chars);
    TrimEndSlice(t, chars);
    var i :| 0 <= i < |r| && r[i] == x;
    assert t[i] == x;
    assert s[|s| - |t| + i] == x;
  }

  /** Removal only removes characters. */
  lemma {:induction false} RemoveKeepsOnly(s: string, c: char, x: char)
    requires x in RemoveChar(s, c)
    ensures x in s
  {
    if s != [] && x != s[0] {
      RemoveKeepsOnly(s[1..], c, x);
    }
  }

  /** Removal works piece by piece: removing from a concatenation is the
      concatenation of the removals, so the characters other than `c` keep their order. */
  lemma {:induction false} RemoveCharAppend(a: string, b: string, c: char)
    ensures RemoveChar(a + b, c) == RemoveChar(a, c) + RemoveChar(b, c)
  {
    if a == [] {
      assert a + b == b;
    } else {
      assert (a + b)[1..] == a[1..] + b;
      RemoveCharAppend(a[1..], b, c);
    }
  }

  predicate IsLower(c: char) { 'a' <= c <= 'z' }

  /** The capital of a lower-case ASCII letter lies 32 code points below it. */
  function UpperChar(c: char): (u: char)
    ensures !IsLower(u)
    ensures IsLower(c) ==> 'A' <= u <= 'Z' && u as int == c as int - 32
    ensures !IsLower(c) ==> u == c
  {
    if IsLower(c) then (c as int - 32) as char else c
  }

  /** str.upper() restricted to ASCII letters: same length, every lower-case
      letter replaced by its own capital, every other character kept. */
  function Upper(s: string): (r: string)
    ensures |r| == |s|
    ensures forall i :: 0 <= i < |r| ==> !IsLower(r[i])
    ensures forall i :: 0 <= i < |s| && IsLower(s[i]) ==> r[i] as int == s[i] as int - 32
    ensures forall i :: 0 <= i < |s| && !IsLower(s[i]) ==> r[i] == s[i]
  {
    if s == [] then [] else [UpperChar(s[0])] + Upper(s[1..])
  }

  predicate IsDigit(c: char) { '0' <= c <= '9' }

  predicate AllDigits(s: string) {
    forall i :: 0 <= i < |s| ==> IsDigit(s[i])
  }

  predicate NoDigit(s: string) {
    forall i :: 0 <= i < |s| ==> !IsDigit(s[i])
  }

  lemma AllDigitsAppend(a: string, b: string)
    requires AllDigits(a) && AllDigits(b)
    ensures AllDigits(a + b)
  {
    assert forall i :: 0 <= i < |a + b| ==> (a + b)[i] == (if i < |a| then a[i] else b[i - |a|]);
  }

  /** Removing a non-digit from a string of digits changes nothing. */
  lemma {:induction false} RemoveFromDigits(d: string, c: char)
    requires AllDigits(d) && !IsDigit(c)
    ensures RemoveChar(d, c) == d
  {
    if d != [] {
      assert AllDigits(d[1..]) by { assert forall i :: 0 <= i < |d| - 1 ==> d[1..][i] == d[i + 1]; }
      RemoveFromDigits(d[1..], c);
      assert d == [d[0]] + d[1..];
    }
  }

  function DigitChar(d: nat): (c: char)
    requires d < 10
    ensures IsDigit(c) && c as int - '0' as int == d
  {
    ('0' as int + d) as char
  }

  /** The value of a string of decimal digits, most significant first
      (leading zeros allowed, as int() allows them). */
  function DigitsValue(s: string): nat
    requires AllDigits(s)
  {
    if s == [] then 0
    else 10 * DigitsValue(s[..|s| - 1]) + (s[|s| - 1] as int - '0' as int)
  }

  /** Decimal rendering of a natural number, without leading zeros. */
  function ShowNat(n: nat): (r: string)
    ensures |r| > 0 && AllDigits(r)
  {
    if n < 10 then [DigitChar(n)] else ShowNat(n / 10) + [DigitChar(n % 10)]
  }

  /** Decimal rendering of an integer, with a leading '-' when negative. */
  function ShowInt(n: int): (r: string)
    ensures |r| > 0 && NoEdge(r, Whitespace)
  {
    var d := ShowNat(if n < 0 then -n else n);
    var r := if n < 0 then "-" + d else d;
    assert IsDigit(r[|r| - 1]);
    r
  }

  /** What int() accepts once whitespace is stripped: an optional sign,
      then at least one ASCII digit and nothing else. */
  predicate IsNumeral(t: string) {
    |t| > 0 && (if t[0] == '-' || t[0] == '+' then |t| > 1 && AllDigits(t[1..]) else AllDigits(t))
  }

  /** Python's int(str) on base-10 text: surrounding whitespace is ignored,
      then an optional sign and at least one digit; anything else raises
      ValueError, modelled as None. In particular text without a digit is
      always refused. */
  function ParseInt(s: string): (r: Option<int>)
    ensures r.Some? <==> IsNumeral(Strip(s))
    ensures NoDigit(s) ==> r == None
  {
    var t := Strip(s);
    assert NoDigit(s) ==> ParseSigned(t) == None by {
      if NoDigit(s) && |t| > 0 {
        StripKeepsOnly(s, Whitespace, t[|t| - 1]);
        assert !IsDigit(t[|t| - 1]);
        if |t| > 1 {
          assert t[1..][|t| - 2] == t[|t| - 1];
        }
      }
    }
    ParseSigned(t)
  }

  /** int() on text already stripped of whitespace. */
  function ParseSigned(t: string): Option<int> {
    if |t| > 1 && (t[0] == '-' || t[0] == '+') && AllDigits(t[1..]) then
      var v: int := DigitsValue(t[1..]);
      Some(if t[0] == '-' then -v else v)
    else if |t| > 0 && AllDigits(t) then
      Some(DigitsValue(t))
    else
      None
  }

  /** int() strips first, so stripping beforehand changes nothing. */
  lemma ParseIntStrip(s: string)
    ensures ParseInt(Strip(s)) == ParseInt(s)
  {
    assert Strip(Strip(s)) == Strip(s);
  }

  lemma {:induction false} DigitsValueShowNat(n: nat)
    ensures DigitsValue(ShowNat(n)) == n
  {
    if n >= 10 {
      var s := ShowNat(n);
      assert s[..|s| - 1] == ShowNat(n / 10);
      DigitsValueShowNat(n / 10);
    }
  }

  /** A digit string is left alone by strip(). */
  lemma StripDigits(d: string)
    requires |d| > 0 && AllDigits(d)
    ensures Strip(d) == d && Strip("-" + d) == "-" + d
  {
    assert IsDigit(d[0]) && IsDigit(d[|d| - 1]);
    var m := "-" + d;
    assert m[|m| - 1] == d[|d| - 1];
  }

  lemma ParseDigits(d: string)
    requires |d| > 0 && AllDigits(d)
    ensures ParseInt(d) == Some(DigitsValue(d))
  {
    StripDigits(d);
    assert IsDigit(d[0]);
    assert ParseSigned(d) == Some(DigitsValue(d));
  }

  lemma ParseNegativeDigits(d: string)
    requires |d| > 0 && AllDigits(d)
    ensures ParseInt("-" + d) == Some(-(DigitsValue(d) as int))
  {
    StripDigits(d);
    NegativeSigned(d);
  }

  lemma NegativeSigned(d: string)
    requires |d| > 0 && AllDigits(d)
    ensures ParseSigned("-" + d) == Some(-(DigitsValue(d) as int))
  {
    var m := "-" + d;
    assert m[1..] == d;
  }

  /** int() reads back every integer rendered in decimal. */
  lemma ParseShowInt(n: int)
    ensures ParseInt(ShowInt(n)) == Some(n)
  {
    var m: nat := if n < 0 then -n else n;
    DigitsValueShowNat(m);
    if n < 0 {
      ParseNegativeDigits(ShowNat(m));
    } else {
      ParseDigits(ShowNat(m));
    }
  }
}
